=== FILE: README.md ===
# The marginal child: benefit engine and marginal-child sweeps

This project is a Dafny model of the computational core of "the marginal
child", a tool that shows how much a household's net income changes with each
additional child. The core has two halves.

- **The mock benefit service** (`api/app_mock.py`). It has a simplified 2024
  benefit engine: the federal poverty guideline, SNAP, a Medicaid value proxy,
  the EITC, CTC, CDCC, WIC and the premium tax credit. It also has three JSON
  handlers built on that engine:
  - `/api/calculate` evaluates one household;
  - `/api/calculate_cliff` sweeps earned income over an inclusive grid;
  - `/api/marginal_child` sweeps income and, at each income, compares 0
    through 4 children, emitting one record per added child.
- **The dashboard computation** (`calculations.py`). It validates the inputs
  and builds one household description per child count, with the `adult`,
  the `spouse` and `child_1 .. child_n`. It asks a microsimulation for net
  income along an income axis, then differences consecutive child counts. It
  also renders child ordinals.

Module layout:

| module | file | contents |
|---|---|---|
| `Basics` | basics.dfy | `Option` (with `dict.get`-style defaults), `Result`, real min/max |
| `Decimal` | decimal.dfy | `str(n)` for integers and its parser |
| `PyRange` | pyrange.dfy | Python's `range(start, stop, step)` and the inclusive income grid |
| `Grids` | grids.dfy | two nested loops flattened into one list; swapping the loops permutes the output |
| `Programs` | programs.dfy | the per-program formulas |
| `Engine` | engine.dfy | the per-household aggregation shared by all three handlers |
| `Marginal` | marginal.dfy | marginal records, the income-major loops of the mock service, the children-major loops of the dashboard |
| `MockApi` | mock_api.dfy | the three handlers over an optional-field request record |
| `Calculations` | calculations.dfy | validation, the household description, the simulator-driven computation, ordinals |

Modelling choices:

- Money and rates are exact `real`s. Grid incomes are `int`s, as Python's
  `range` yields them.
- A missing request field takes the handler's default, as `dict.get` does.
- Python's `ValueError`s become `Result` errors. Two kinds are modelled:
  a zero step in `range`, and each failed validation check.
- The microsimulation is a function parameter,
  `simulate(situation, includeHealth, i)`. It returns the net income at axis
  point `i`. With `includeHealth` it returns the variable that includes the
  value of health coverage.
- `constants.py` is not part of this model. Its values (the largest child
  count, the state table, the income axis and the default ages) are the
  fields of `Calculations.Config`.

The EITC is not continuous at the start of the plateau for no children or for
three or more. The phase-in meets the maximum credit at the plateau only for
one and two children. For the other schedules the phase-in stops short and the
credit jumps where the plateau starts: 598.995 to 600, and 7429.5 to 7430.
`Programs.EitcJumpsAtPlateau` states the jump, and
`Programs.EitcContinuousForOneOrTwoChildren` states continuity where it holds.

## Model

| member | source | states |
|---|---|---|
| `Programs.Fpg` | api/app_mock.py:9-17 | For every real household size the guideline is 15060 plus 5380 per extra person. Sizes the table lacks (zero or negative) fall back to the size-8 amount, 52720. It is never below 15060. |
| `Programs.FpgStrictlyIncreasing` | api/app_mock.py:14-17 | A larger household always has a strictly higher guideline, across the table and the per-person extension beyond 8. |
| `Programs.SnapMaxMonthly` | api/app_mock.py:28-29 | Outside sizes 1-5 the allotment is 1386 + 200·(size − 6). The table's size-6 entry agrees with that extension. Real households get at least 291. |
| `Programs.SnapMaxMonthlyIncreasing` | api/app_mock.py:28-29 | The maximum allotment grows strictly with household size. |
| `Programs.Snap` | api/app_mock.py:19-31 | SNAP is never negative. It is zero above 130% of the guideline. It is positive exactly when income is within that limit and 30% of monthly income is below the allotment. In that case it equals 12·allotment − 0.3·income, and it never exceeds twelve months of the allotment. |
| `Programs.SnapNonIncreasing` | api/app_mock.py:19-31 | For a fixed household, more income never yields more SNAP. |
| `Programs.MedicaidValue` | api/app_mock.py:33-44 | The value is 3000 per child when there are children and income is under 200%. Otherwise it is 6000 under 138%. It is zero exactly when neither test passes, and never negative. |
| `Programs.MedicaidNonIncreasing` | api/app_mock.py:33-44 | For a fixed household size and child count, more income never raises the Medicaid value. |
| `Programs.EitcScheduleFor` | api/app_mock.py:46-71 | Every bucket's parameters are positive, with the plateau before the phase-out. For 1 or 2 children the phase-in reaches the maximum credit exactly at the plateau. For 0 and 3+ children, and for negative counts, it stops short of the maximum. |
| `Programs.EitcMarriedPhaseOutLater` | api/app_mock.py:52-70 | Marriage changes only the phase-out start, and never moves it earlier. |
| `Programs.EitcUnder` | api/app_mock.py:73-79 | The credit under one schedule, piece by piece. Up to the plateau start it is min(income·phase-in rate, maximum). On the plateau it is the maximum. Past the phase-out start it is max(0, maximum − (income − phase-out start)·phase-out rate). For non-negative income it lies between 0 and the maximum. |
| `Programs.Eitc` | api/app_mock.py:46-79 | The filer's credit follows the three pieces of the schedule for its child count and status, and is bounded by that schedule's maximum. It is zero once income reaches phase-out start + maximum / phase-out rate. |
| `Programs.EitcNonDecreasingInPhaseIn` | api/app_mock.py:73-74 | Up to the plateau start the credit never falls as income rises. |
| `Programs.EitcNonIncreasingAbovePlateau` | api/app_mock.py:75-79 | Past the plateau start the credit never rises with income. |
| `Programs.EitcLipschitzAbovePlateau` | api/app_mock.py:75-79 | Past the plateau start the credit moves at most the phase-out rate per dollar. So it has no jump where the phase-out begins. |
| `Programs.EitcContinuousForOneOrTwoChildren` | api/app_mock.py:54-79 | With one or two children the credit moves at most the phase-in rate per dollar at every income. |
| `Programs.EitcJumpsAtPlateau` | api/app_mock.py:48-74 | With no children or 3+ children, the credit at the plateau start is strictly below its value on the plateau (598.995 vs 600, 7429.5 vs 7430). |
| `Programs.Cdcc` | api/app_mock.py:142 | 1000 per child for up to three children and 3000 from three on. Zero children, or a negative count, gives nothing. It always lies in [0, 3000]. |
| `Programs.ContributionRate` | api/app_mock.py:104-114 | The rate lies in [0.02, 0.085]. Each rate holds exactly on its band of the income-to-guideline ratio: 2% up to 1.5, 4% in (1.5, 2], 6% in (2, 2.5], 8% in (2.5, 3] and 8.5% above 3. |
| `Programs.ContributionRateMonotone` | api/app_mock.py:104-114 | A higher income-to-guideline ratio never lowers the contribution rate. |
| `Programs.PtcFor` | api/app_mock.py:95-117 | Against a positive guideline amount, the credit lies in [0, 5000]. It is positive only between 100% and 400% of the guideline. Inside that window it is the benchmark premium less income times the contribution rate at the income's ratio to the guideline, floored at zero. |
| `Programs.PtcBands` | api/app_mock.py:100-117 | Inside the window the credit is, band by band, the benchmark less 2%, 4%, 6%, 8% or 8.5% of income, floored at zero. The bands are 100-150%, 150-200%, 200-250%, 250-300% and 300-400% of the guideline, each closed above. |
| `Programs.Ptc` | api/app_mock.py:92-94 | The credit for a household size lies in [0, 5000]. The size enters only through its guideline: the credit is the guideline-relative credit at that size's guideline. |
| `Programs.PtcBySize` | api/app_mock.py:92-117 | For a household size, the credit is positive only between 100% and 400% of its guideline. There it is the benchmark less 2%, 4%, 6%, 8% or 8.5% of income, by band, floored at zero. |
| `Programs.MarginalRate` | api/app_mock.py:147-152 | The rate is 12% exactly up to 44726, 22% exactly in (44726, 95376], and 24% exactly above 95376. |
| `Engine.Assess` | api/app_mock.py:125-169 | Every program sees the same pooled income and the same household size, 1 + spouse + children. The premium tax credit is paid only where Medicaid is worth nothing. CHIP and housing are zero. The total is the sum of the eight programs, and net income is income plus that total. For a real household no program subtracts: net ≥ income. |
| `Engine.Evaluate` | api/app_mock.py:123-132 | Market income is employment plus spouse income, whatever the marital status. The size counts the spouse only when married. |
| `Engine.EvaluatePoolsIncome` | api/app_mock.py:123-125 | Only the combined income matters: two households with the same total, status and children get identical results. |
| `Engine.MedicaidCliff` | api/app_mock.py:135-145 | A benefit cliff. A childless single adult earning 20000 nets 26000. At 21000 they lose the 6000 Medicaid value, gain a 4580 premium tax credit, and net only 25580. |
| `Engine.SingleEarnerNetIncomes` | api/app_mock.py:254-264 | A single earner at 20000 nets 26000, 31015, 42996, 52306 and 59490 with 0 to 4 children. |
| `MockApi.CalculateBenefits` | api/app_mock.py:119-169 | The response is `Engine.Assess` of the pooled income (missing incomes default to 0), the exact-"married" status and the child count (default 0). So every program amount, the total and the net income carry `Assess`'s contract. In particular market income is employment + spouse income, the size is 1 + married + children, net is market income plus total benefits, and the EITC uses the married schedule exactly for "married". The household is built by the helper `MockApi.HouseholdAt`. |
| `MockApi.OnlyMarriedCounts` | api/app_mock.py:128-129 | Any status other than "married" gives the same response as no status at all. |
| `MockApi.CliffPointAt` | api/app_mock.py:185-222 | A cliff point carries its grid income. Its net income is that income + spouse income + total benefits, and its total is the sum of its eight program amounts. Each point evaluates the helper `MockApi.HouseholdAt` at its income. |
| `MockApi.CliffGrid` | api/app_mock.py:175-181 | The cliff axis fails exactly when the step (default 1000) is zero. |
| `MockApi.CalculateCliff` | api/app_mock.py:171-224 | The sweep fails exactly on a zero step. Otherwise it has one point per grid income, in grid order, each evaluated with the rest of the request held fixed. |
| `MockApi.CliffIncomes` | api/app_mock.py:181-183 | The k-th point carries the k-th grid income. |
| `MockApi.CliffCoversGrid` | api/app_mock.py:181 | With a positive step there is a point at income x exactly when min ≤ x ≤ max (defaults 0 and 100000) and x − min is a multiple of the step. |
| `MockApi.CliffAscending` | api/app_mock.py:181 | With a positive step the points come in strictly ascending income order. |
| `MockApi.CliffMatchesCalculate` | api/app_mock.py:182-207 | Every cliff point's program amounts (SNAP, WIC, Medicaid, CHIP, premium tax credit, EITC, CTC, CDCC, housing), total benefits and net income equal what `/api/calculate` returns for that earned income with the rest of the request unchanged. |
| `MockApi.MarginalGrid` | api/app_mock.py:231-237 | The marginal axis fails exactly when the step (default 2500) is zero. |
| `MockApi.CalculateMarginalChild` | api/app_mock.py:226-278 | The sweep fails exactly on a zero step. Otherwise there are four records per grid income. Record t is for grid income t / 4 and child t % 4 + 1. It carries that household's net income and the difference from one child fewer. |
| `MockApi.MarginalChildSweep` | api/app_mock.py:226-278 | The handler's nested loops, with the previous net income carried between child counts, return exactly `CalculateMarginalChild`. |
| `MockApi.MarginalChildIgnoresRequestedChildren` | api/app_mock.py:240-251 | The requested child count plays no part: the loop overwrites it with 0..4. |
| `MockApi.ExampleNets` | api/app_mock.py:245-264 | The sweep's net incomes for a single filer at 20000 with 0-4 children. |
| `MockApi.MarginalChildExample` | api/app_mock.py:226-278 | For a single filer with the window fixed at 20000, the response is four records. The 1st to 4th children add 5015, 11981, 9310 and 7184. |
| `Marginal.IncomeMajorRecords` | api/app_mock.py:237-276 | The income-major output has maxChildren records per income. Record t is the difference for income t / maxChildren and child t % maxChildren + 1, and every child count lies in 1..maxChildren. Each record comes from the helper `Marginal.IncomeMajorRecord`. |
| `Marginal.OneIncomeFourChildren` | api/app_mock.py:240-276 | One income with four children gives exactly four records: child 1 against 0 through child 4 against 3. |
| `Marginal.IncomeMajorSweep` | api/app_mock.py:237-276 | The nested loops return exactly `IncomeMajorRecords`. No record is emitted for 0 children, and `prev_net_income` always holds the net income of one child fewer. |
| `Marginal.ChildrenMajorRecords` | calculations.py:230-249 | The children-major output has maxChildren·points records. Record t is child t / points + 1 at point t % points, with that row's net income and the difference from the previous row. Each record comes from the helper `Marginal.ChildrenMajorRecord`. |
| `Marginal.ChildrenMajorPointwise` | calculations.py:230-249 | The same pointwise description, proved for the flattened two-level loop. |
| `Marginal.ChildrenMajorSweep` | calculations.py:230-249 | The dashboard's difference loops return exactly `ChildrenMajorRecords`. |
| `Marginal.NetTable` | calculations.py:171-228 | The net-income table has one row per child count 0..maxChildren, each with one entry per income point. |
| `Marginal.ChildrenMajorMatchesIncomeMajor` | calculations.py:230-249 | Batching by child count only reorders the output: with the same net-income function both loop orders emit the same multiset of records. |
| `Grids.RowMajorPointwise` | api/app_mock.py:237-240 | Two nested loops that append to one list put the cell (a, b) at position a·cols + b. |
| `Grids.TransposeSameMultiset` | calculations.py:231-237 | Swapping the outer and inner loops yields the same multiset of cells. |
| `PyRange.Steps` | api/app_mock.py:181 | `range` with a non-zero step visits start + k·step for k = 0, 1, …, stopping at the first value past the bound, in either direction. |
| `PyRange.Range` | api/app_mock.py:237 | `range` fails (ValueError) exactly when the step is zero. |
| `PyRange.IncomeGrid` | calculations.py:169 | `range(min, max + 1, step)` fails exactly on a zero step. With a positive step every value lies in [min, max]. |
| `PyRange.StepsOrdered` | api/app_mock.py:181 | A positive step visits strictly ascending values; a negative step strictly descending ones. |
| `PyRange.StepsMembership` | api/app_mock.py:237 | With a positive step, x is visited exactly when start ≤ x < stop and x − start is a multiple of the step. |
| `PyRange.GridMembership` | calculations.py:169 | The income grid holds exactly the lattice points min + k·step up to and including max. |
| `PyRange.GridIncludesMaxIff` | api/app_mock.py:176-181 | The upper bound is on the grid exactly when it lands on a step boundary. |
| `PyRange.GridExampleInclusive` | api/app_mock.py:181 | Step 10000 from 0 to 50000 gives 0, 10000, …, 50000, including the maximum. |
| `PyRange.GridExampleExclusive` | api/app_mock.py:181 | Step 10000 from 0 to 45000 stops at 40000. |
| `PyRange.GridExampleWindow` | api/app_mock.py:181 | A window 20000..40000 gives three points. A window whose bounds coincide gives one. |
| `Decimal.NatToDecimal` | calculations.py:107 | `str(n)` is a non-empty digit string without a leading zero (except for 0 itself). |
| `Decimal.IntToDecimal` | calculations.py:268 | `str(i)` starts with '-' exactly for negative numbers and is all digits otherwise. |
| `Decimal.NatToDecimalRoundTrip` | calculations.py:107 | Parsing `str(n)` gives back n. |
| `Decimal.IntToDecimalRoundTrip` | calculations.py:268 | Parsing `str(i)` gives back i, signs included. |
| `Decimal.NatToDecimalInjective` | calculations.py:115 | Different numbers render differently. |
| `Decimal.IntToDecimalInjective` | calculations.py:268 | Different integers render differently. |
| `Calculations.StateCodeMembership` | calculations.py:45-47 | A code is valid exactly when some table entry carries it. The codes are listed by the helper `Calculations.StateCodes`. |
| `Calculations.ValidateInputs` | calculations.py:25-60 | The checks run in the order `validate_inputs` makes them, and each error is reported exactly when all earlier checks pass and that check fails: status not single/married, unknown state, negative spouse income, non-boolean flag. The "spouse income will be ignored" warning is logged exactly for a single filer with a valid state and positive spouse income, even when the flag check then fails. |
| `Calculations.ChildName` | calculations.py:107 | Every child name is "child_" followed by at least one more character. |
| `Calculations.ChildNameInjective` | calculations.py:107-115 | Different child numbers give different member names. |
| `Calculations.People` | calculations.py:90-109 | The household has 1 + married + children people. |
| `Calculations.CreateHouseholdSituation` | calculations.py:63-127 | A negative child count and one above the maximum are rejected, in that order, and every other count is accepted. On success there are 1 + married + n people. The family, household, tax-unit and SPM-unit member lists are the same list naming the people in order, and the state is recorded. The member list is built by the helper `Calculations.Members`. |
| `Calculations.PeopleLayout` | calculations.py:90-109 | The adult comes first at the default adult age. The spouse follows exactly when married, carrying the spouse's income. Then come child_1..child_n at the default child age. |
| `Calculations.PeopleDistinct` | calculations.py:106-115 | No name appears twice, so keying people by name (a Python dict) loses nobody. |
| `Calculations.HouseholdMembers` | calculations.py:63-127 | The situation built for a valid count has the layout above and pairwise-distinct names. |
| `Calculations.IncomePoints` | calculations.py:169 | The income points fail exactly on a zero step. |
| `Calculations.AxisSituation` | calculations.py:183-198 | The simulated situation is the one `create_household_situation` built, unchanged except that it gains an employment-income axis. The axis has as many points as there are income points and runs from the configured minimum to the maximum. |
| `Calculations.CalculateMarginalChildBenefits` | calculations.py:130-255 | A validation error is passed through unchanged and no record is produced. The computation succeeds exactly for valid inputs with a non-zero step, and then yields maxChildren records per income point. The net table comes from the helper `Calculations.SimulatedNets`, one simulator call per child count and axis point. |
| `Calculations.MarginalChildBenefitsAt` | calculations.py:230-249 | Record t is child t / points + 1 at income point t % points. It carries that count's simulated net income and its difference from one child fewer at the same point. |
| `Calculations.MatchesIncomeMajorSweep` | calculations.py:230-249 | When the simulator agrees with a net-income function at every point, the dashboard emits the same multiset of records as the income-major sweep of the mock service. |
| `Calculations.GetChildOrdinal` | calculations.py:258-268 | The fixed table for 1-4 and the `<n>th` fallback agree with one rule: the number's decimal form followed by st/nd/rd/th. |
| `Calculations.OrdinalReadsBack` | calculations.py:267-268 | The number can be parsed back from its ordinal. |
| `Calculations.OrdinalInjective` | calculations.py:258-268 | Different numbers get different ordinals. |

## Left out

- `/api/states` (api/app_mock.py:280-289) is a literal list with no logic.
- The Flask and CORS plumbing, the JSON encoding of responses, and the `__main__` entry point are not modelled.
- The Streamlit side of `calculations.py` is not modelled: `st.cache_data`, the progress bar and status text, and the logging. The validation warning is kept as a boolean in `Calculations.Validation`.
- The microsimulation is a parameter. Its internals, its exceptions (re-raised by `calculate_marginal_child_benefits`) and how it spreads axis points between the minimum and the maximum are not modelled. The records carry the dashboard's own income points, as `calculate_marginal_child_benefits` does.
- Floating point is not modelled: amounts are exact reals. The `float(...)` conversions at calculations.py:238-247 are identities here.
- Request fields are modelled with the types the handlers expect. A JSON value of another type (a string income, a float step) is out of scope.
- `Programs.Ctc` and `Programs.Wic` carry no contract of their own. Their closed forms are stated in `Engine.Assess`.
- `Engine.Evaluate`: its contract covers only the pooled income and the size. Everything else follows from `Engine.Assess`, which it calls with the pooled income.
- `api/app.py`, `api/app_simple.py`, `app.py`, `ui_components.py` and the axis experiments are outside the modelled core.

=== FILE: basics.dfy ===
/**
 Small shared vocabulary: optional values, success-or-error results and the
 real-valued `max`/`min`/`abs` that the benefit formulas use.
 */
module Basics {

  /** A value that may be absent, as a missing key in a JSON request body. */
  datatype Option<+T> = None | Some(value: T) {

    /** The value, or `default` when absent (Python's `dict.get(key, default)`). */
    function GetOr(default: T): T {
      match this
      case Some(v) => v
      case None => default
    }
  }

  /** Either a computed value or the error that a Python `raise` would carry. */
  datatype Result<+T, +E> = Ok(value: T) | Err(error: E)

  function MaxReal(a: real, b: real): (r: real)
    ensures r >= a && r >= b
    ensures r == a || r == b
  {
    if a >= b then a else b
  }

  function MinReal(a: real, b: real): (r: real)
    ensures r <= a && r <= b
    ensures r == a || r == b
  {
    if a <= b then a else b
  }

  function MinInt(a: int, b: int): (r: int)
    ensures r <= a && r <= b
    ensures r == a || r == b
  {
    if a <= b then a else b
  }

  function Abs(x: real): (r: real)
    ensures r >= 0.0
    ensures r == x || r == -x
  {
    if x >= 0.0 then x else -x
  }

  /** Euclidean division recovers quotient and remainder: `(q*d + m) / d == q`. */
  lemma DivModOf(q: int, m: int, d: int)
    requires 0 <= m < d
    ensures (q * d + m) / d == q
    ensures (q * d + m) % d == m
  {
    var x := q * d + m;
    var q', m' := x / d, x % d;
    assert (q' - q) * d == m - m';
    if q' > q {
      MultiplyAtLeastOnce(q' - q, d);
    } else if q' < q {
      MultiplyAtLeastOnce(q - q', d);
    }
  }

  lemma MultiplyAtLeastOnce(k: int, c: nat)
    requires k >= 1
    ensures k * c >= c
  {
  }
}

=== FILE: calculations.dfy ===
/**
 The dashboard's computation: validate the inputs, build one household
 description per child count, ask an external simulator for the net income at
 every point of an income axis, and difference consecutive child counts.
 The simulator is a parameter: `simulate(situation, includeHealth, i)` is the
 net income it reports at axis point `i` (household net income, including the
 value of health coverage when `includeHealth` holds).
 */
module Calculations {
  import opened Basics
  import opened Decimal
  import opened PyRange
  import opened Marginal

  /** The dashboard's constants: the largest child count, the state table
      (code, name), the income axis and the default ages. */
  datatype Config = Config(
    maxChildren: nat,
    usStates: seq<(string, string)>,
    incomeMin: int,
    incomeMax: int,
    incomeStep: int,
    defaultAdultAge: int,
    defaultChildAge: int)

  /** The health-benefits flag as received: a boolean, or something else. */
  datatype FlagValue = BoolFlag(b: bool) | NotBool

  datatype InputError =
    | InvalidMaritalStatus
    | InvalidStateCode
    | NegativeSpouseIncome
    | HealthFlagNotBool
    | NegativeChildren
    | TooManyChildren

  /** What validation decides: the first failed check, if any, and whether the
      "spouse income will be ignored" warning was logged on the way. */
  datatype Validation = Validation(warned: bool, error: Option<InputError>)

  // ---------------------------------------------------------------------------
  // Validation

  /** The valid state codes: the first component of every entry of the state table. */
  function StateCodes(cfg: Config): (codes: seq<string>)
    ensures |codes| == |cfg.usStates|
    ensures forall k :: 0 <= k < |codes| ==> codes[k] == cfg.usStates[k].0
  {
    seq(|cfg.usStates|, k requires 0 <= k < |cfg.usStates| => cfg.usStates[k].0)
  }

  lemma StateCodeMembership(cfg: Config, code: string)
    ensures code in StateCodes(cfg) <==> exists k :: 0 <= k < |cfg.usStates| && cfg.usStates[k].0 == code
  {
    if code in StateCodes(cfg) {
      var k :| 0 <= k < |StateCodes(cfg)| && StateCodes(cfg)[k] == code;
      assert cfg.usStates[k].0 == code;
    }
  }

  predicate ValidMaritalStatus(marital: string) {
    marital == "single" || marital == "married"
  }

  /** The checks in the order `validate_inputs` makes them; the warning is logged once
      the first three checks have passed, before the flag is checked. */
  function ValidateInputs(cfg: Config, marital: string, state: string, spouseIncome: real, health: FlagValue): (v: Validation)
    ensures v.error.None? <==>
      ValidMaritalStatus(marital) && state in StateCodes(cfg) && spouseIncome >= 0.0 && health.BoolFlag?
    ensures v.error == Some(InvalidMaritalStatus) <==> !ValidMaritalStatus(marital)
    ensures v.error == Some(InvalidStateCode) <==> ValidMaritalStatus(marital) && state !in StateCodes(cfg)
    ensures v.error == Some(NegativeSpouseIncome) <==>
      ValidMaritalStatus(marital) && state in StateCodes(cfg) && spouseIncome < 0.0
    ensures v.error == Some(HealthFlagNotBool) <==>
      ValidMaritalStatus(marital) && state in StateCodes(cfg) && spouseIncome >= 0.0 && !health.BoolFlag?
    ensures v.warned <==> marital == "single" && state in StateCodes(cfg) && spouseIncome > 0.0
  {
    if !ValidMaritalStatus(marital) then Validation(false, Some(InvalidMaritalStatus))
    else if state !in StateCodes(cfg) then Validation(false, Some(InvalidStateCode))
    else if spouseIncome < 0.0 then Validation(false, Some(NegativeSpouseIncome))
    else
      var warned := spouseIncome > 0.0 && marital == "single";
      if !health.BoolFlag? then Validation(warned, Some(HealthFlagNotBool))
      else Validation(warned, None)
  }

  // ---------------------------------------------------------------------------
  // Household description

  datatype Person = Person(name: string, age: int, employmentIncome: Option<real>)

  /** An employment-income axis: `count` points from `min` to `max`. */
  datatype IncomeAxis = IncomeAxis(count: nat, min: int, max: int)

  /** One household for the simulator: its people, the member list of each of
      its four groupings (family, household, tax unit, SPM unit), its state and,
      once the computation adds it, the income axis. */
  datatype Situation = Situation(
    people: seq<Person>,
    familyMembers: seq<string>,
    householdMembers: seq<string>,
    taxUnitMembers: seq<string>,
    spmUnitMembers: seq<string>,
    stateCode: string,
    axes: Option<IncomeAxis>)

  /** `f"child_{k}"`. */
  function ChildName(k: nat): (s: string)
    ensures |s| > 6 && s[..6] == "child_"
  {
    "child_" + NatToDecimal(k)
  }

  lemma ChildNameInjective(j: nat, k: nat)
    requires ChildName(j) == ChildName(k)
    ensures j == k
  {
    assert NatToDecimal(j) == ChildName(j)[6..];
    assert NatToDecimal(k) == ChildName(k)[6..];
    NatToDecimalInjective(j, k);
  }

  /** The people of a household, in the order `create_household_situation` inserts them. */
  function People(cfg: Config, numChildren: nat, married: bool, spouseIncome: real): (people: seq<Person>)
    ensures |people| == 1 + (if married then 1 else 0) + numChildren
  {
    [Person("adult", cfg.defaultAdultAge, None)]
    + (if married then [Person("spouse", cfg.defaultAdultAge, Some(spouseIncome))] else [])
    + seq(numChildren, i requires 0 <= i < numChildren => Person(ChildName(i + 1), cfg.defaultChildAge, None))
  }

  function Members(people: seq<Person>): (names: seq<string>)
    ensures |names| == |people|
    ensures forall k :: 0 <= k < |names| ==> names[k] == people[k].name
  {
    seq(|people|, k requires 0 <= k < |people| => people[k].name)
  }

  /** The household description for `numChildren` children. Only "married"
      adds a spouse; the spouse's income is otherwise dropped. */
  function CreateHouseholdSituation(cfg: Config, numChildren: int, marital: string, state: string, spouseIncome: real)
    : (r: Result<Situation, InputError>)
    ensures r == Err(NegativeChildren) <==> numChildren < 0
    ensures r == Err(TooManyChildren) <==> 0 <= numChildren && numChildren > cfg.maxChildren
    ensures r.Ok? <==> 0 <= numChildren <= cfg.maxChildren
    ensures r.Ok? ==>
      var s := r.value;
      && |s.people| == 1 + (if marital == "married" then 1 else 0) + numChildren
      && s.familyMembers == s.householdMembers == s.taxUnitMembers == s.spmUnitMembers
      && |s.familyMembers| == |s.people|
      && (forall k :: 0 <= k < |s.people| ==> s.familyMembers[k] == s.people[k].name)
      && s.stateCode == state && s.axes == None
  {
    if numChildren < 0 then Err(NegativeChildren)
    else if numChildren > cfg.maxChildren then Err(TooManyChildren)
    else
      var people := People(cfg, numChildren, marital == "married", spouseIncome);
      var members := Members(people);
      Ok(Situation(people, members, members, members, members, state, None))
  }

  /** The order of the people: the adult first, then the spouse exactly when
      married (carrying the spouse's income), then `child_1` .. `child_n`, all
      of the default child age. */
  lemma PeopleLayout(cfg: Config, numChildren: nat, married: bool, spouseIncome: real)
    ensures var people := People(cfg, numChildren, married, spouseIncome);
      var m := if married then 1 else 0;
      && people[0] == Person("adult", cfg.defaultAdultAge, None)
      && (married ==> people[1] == Person("spouse", cfg.defaultAdultAge, Some(spouseIncome)))
      && (forall k :: 1 + m <= k < |people| ==> people[k] == Person(ChildName(k - m), cfg.defaultChildAge, None))
  {
    var people := People(cfg, numChildren, married, spouseIncome);
    var m := if married then 1 else 0;
    var children := seq(numChildren, i requires 0 <= i < numChildren => Person(ChildName(i + 1), cfg.defaultChildAge, None));
    assert people == [Person("adult", cfg.defaultAdultAge, None)]
      + (if married then [Person("spouse", cfg.defaultAdultAge, Some(spouseIncome))] else []) + children;
    forall k | 1 + m <= k < |people|
      ensures people[k] == Person(ChildName(k - m), cfg.defaultChildAge, None)
    {
      assert people[k] == children[k - 1 - m];
    }
  }

  /** No name appears twice among the people. */
  lemma PeopleDistinct(cfg: Config, numChildren: nat, married: bool, spouseIncome: real)
    ensures var people := People(cfg, numChildren, married, spouseIncome);
      forall a, b :: 0 <= a < b < |people| ==> people[a].name != people[b].name
  {
    var people := People(cfg, numChildren, married, spouseIncome);
    var m := if married then 1 else 0;
    PeopleLayout(cfg, numChildren, married, spouseIncome);
    forall a, b | 0 <= a < b < |people|
      ensures people[a].name != people[b].name
    {
      if a >= 1 + m {
        if people[a].name == people[b].name {
          ChildNameInjective(a - m, b - m);
        }
      } else {
        assert people[a].name == "adult" || people[a].name == "spouse";
        if b >= 1 + m {
          assert people[b].name[0] == 'c';
        } else {
          assert a == 0 && b == 1;
        }
      }
    }
  }

  /** Who is in the situation built for a valid child count: the layout of
      `PeopleLayout`, with no name appearing twice. */
  lemma HouseholdMembers(cfg: Config, numChildren: nat, marital: string, state: string, spouseIncome: real)
    requires numChildren <= cfg.maxChildren
    ensures var people := CreateHouseholdSituation(cfg, numChildren, marital, state, spouseIncome).value.people;
      var m := if marital == "married" then 1 else 0;
      && people[0] == Person("adult", cfg.defaultAdultAge, None)
      && (marital == "married" ==> people[1] == Person("spouse", cfg.defaultAdultAge, Some(spouseIncome)))
      && (forall k :: 1 + m <= k < |people| ==> people[k] == Person(ChildName(k - m), cfg.defaultChildAge, None))
      && (forall a, b :: 0 <= a < b < |people| ==> people[a].name != people[b].name)
  {
    PeopleLayout(cfg, numChildren, marital == "married", spouseIncome);
    PeopleDistinct(cfg, numChildren, marital == "married", spouseIncome);
  }

  // ---------------------------------------------------------------------------
  // The marginal-child computation

  datatype CalcError = InvalidInput(reason: InputError) | BadIncomeRange(rangeError: RangeError)

  /** The dashboard's income points: `range(min, max + 1, step)`. */
  function IncomePoints(cfg: Config): (r: Result<seq<int>, RangeError>)
    ensures r.Err? <==> cfg.incomeStep == 0
  {
    IncomeGrid(cfg.incomeMin, cfg.incomeMax, cfg.incomeStep)
  }

  /** The situation simulated for `numChildren` children, with the income axis added. */
  function AxisSituation(cfg: Config, numChildren: nat, marital: string, state: string, spouseIncome: real, count: nat)
    : (s: Situation)
    requires numChildren <= cfg.maxChildren
    ensures s.axes == Some(IncomeAxis(count, cfg.incomeMin, cfg.incomeMax))
    ensures |s.people| == 1 + (if marital == "married" then 1 else 0) + numChildren
    ensures s.(axes := None) == CreateHouseholdSituation(cfg, numChildren, marital, state, spouseIncome).value
  {
    CreateHouseholdSituation(cfg, numChildren, marital, state, spouseIncome).value
      .(axes := Some(IncomeAxis(count, cfg.incomeMin, cfg.incomeMax)))
  }

  /** Net income the simulator reports for `numChildren` children at point `i`. */
  function SimulatedNet(cfg: Config, marital: string, state: string, spouseIncome: real, includeHealth: bool,
                        count: nat, simulate: (Situation, bool, nat) -> real, numChildren: nat, i: nat): real
    requires numChildren <= cfg.maxChildren
  {
    simulate(AxisSituation(cfg, numChildren, marital, state, spouseIncome, count), includeHealth, i)
  }

  /** Net incomes for every child count `0..maxChildren`, one array per count. */
  function SimulatedNets(cfg: Config, marital: string, state: string, spouseIncome: real, includeHealth: bool,
                         count: nat, simulate: (Situation, bool, nat) -> real): (nets: seq<seq<real>>)
    ensures NetTableShape(nets, cfg.maxChildren, count)
    ensures forall k, i :: 0 <= k <= cfg.maxChildren && 0 <= i < count ==>
      nets[k][i] == SimulatedNet(cfg, marital, state, spouseIncome, includeHealth, count, simulate, k, i)
  {
    seq(cfg.maxChildren + 1, (k: int) requires 0 <= k <= cfg.maxChildren =>
      seq(count, (i: int) requires 0 <= i < count =>
        SimulatedNet(cfg, marital, state, spouseIncome, includeHealth, count, simulate, k, i)))
  }

  /** The whole computation: validation first (no record is produced for
      invalid inputs), then the income points, then the differences of
      consecutive child counts, children-major. */
  function CalculateMarginalChildBenefits(cfg: Config, marital: string, state: string, spouseIncome: real,
                                          health: FlagValue, simulate: (Situation, bool, nat) -> real)
    : (r: Result<seq<MarginalRecord>, CalcError>)
    ensures ValidateInputs(cfg, marital, state, spouseIncome, health).error.Some? ==>
      r == Err(InvalidInput(ValidateInputs(cfg, marital, state, spouseIncome, health).error.value))
    ensures r.Ok? <==> ValidateInputs(cfg, marital, state, spouseIncome, health).error.None? && cfg.incomeStep != 0
    ensures r.Ok? ==> |r.value| == cfg.maxChildren * |IncomePoints(cfg).value|
  {
    var v := ValidateInputs(cfg, marital, state, spouseIncome, health);
    if v.error.Some? then Err(InvalidInput(v.error.value))
    else
      match IncomePoints(cfg)
      case Err(e) => Err(BadIncomeRange(e))
      case Ok(points) =>
        Ok(ChildrenMajorRecords(points, SimulatedNets(cfg, marital, state, spouseIncome, health.b, |points|, simulate), cfg.maxChildren))
  }

  /** Every record of a successful computation: position `t` holds child count
      `t / |points| + 1` at income point `t % |points|`, with that count's net
      income and its difference from one child fewer. */
  lemma MarginalChildBenefitsAt(cfg: Config, marital: string, state: string, spouseIncome: real,
                                health: FlagValue, simulate: (Situation, bool, nat) -> real, t: nat)
    requires CalculateMarginalChildBenefits(cfg, marital, state, spouseIncome, health, simulate).Ok?
    requires t < |CalculateMarginalChildBenefits(cfg, marital, state, spouseIncome, health, simulate).value|
    ensures var points := IncomePoints(cfg).value;
      var rec := CalculateMarginalChildBenefits(cfg, marital, state, spouseIncome, health, simulate).value[t];
      var net := (k: nat, i: nat) requires k <= cfg.maxChildren =>
        SimulatedNet(cfg, marital, state, spouseIncome, health.b, |points|, simulate, k, i);
      && 0 < |points| && t / |points| < cfg.maxChildren
      && rec.income == points[t % |points|]
      && rec.numChildren == t / |points| + 1
      && rec.netIncome == net(t / |points| + 1, t % |points|)
      && rec.marginalBenefit == net(t / |points| + 1, t % |points|) - net(t / |points|, t % |points|)
  {
    var points := IncomePoints(cfg).value;
    var nets := SimulatedNets(cfg, marital, state, spouseIncome, health.b, |points|, simulate);
    ChildrenMajorPointwise(points, nets, cfg.maxChildren);
  }

  /** Batching by child count is only an optimisation: when the simulator
      reports `net(income, k)` at every point, the dashboard emits the same
      records as the income-major sweep over the same points. */
  lemma MatchesIncomeMajorSweep(cfg: Config, marital: string, state: string, spouseIncome: real,
                                health: FlagValue, simulate: (Situation, bool, nat) -> real, net: (int, nat) -> real)
    requires CalculateMarginalChildBenefits(cfg, marital, state, spouseIncome, health, simulate).Ok?
    requires forall k: nat, i: nat :: k <= cfg.maxChildren && i < |IncomePoints(cfg).value| ==>
      SimulatedNet(cfg, marital, state, spouseIncome, health.b, |IncomePoints(cfg).value|, simulate, k, i)
        == net(IncomePoints(cfg).value[i], k)
    ensures multiset(CalculateMarginalChildBenefits(cfg, marital, state, spouseIncome, health, simulate).value)
         == multiset(IncomeMajorRecords(IncomePoints(cfg).value, cfg.maxChildren, net))
  {
    var points := IncomePoints(cfg).value;
    var nets := SimulatedNets(cfg, marital, state, spouseIncome, health.b, |points|, simulate);
    var table := NetTable(points, cfg.maxChildren, net);
    assert nets == table by {
      forall k | 0 <= k < |nets|
        ensures nets[k] == table[k]
      {
        forall i | 0 <= i < |points|
          ensures nets[k][i] == table[k][i]
        {
        }
      }
    }
    ChildrenMajorMatchesIncomeMajor(points, cfg.maxChildren, net);
  }

  // ---------------------------------------------------------------------------
  // Ordinals

  /** The English suffix `get_child_ordinal` uses: st, nd, rd for 1, 2, 3 and th otherwise. */
  function OrdinalSuffix(num: int): string {
    if num == 1 then "st" else if num == 2 then "nd" else if num == 3 then "rd" else "th"
  }

  /** "1st".."4th" from a fixed table; any other number `n` becomes "<n>th". */
  function GetChildOrdinal(num: int): (s: string)
    ensures s == IntToDecimal(num) + OrdinalSuffix(num)
    ensures |s| >= 3
  {
    if num == 1 then "1st"
    else if num == 2 then "2nd"
    else if num == 3 then "3rd"
    else if num == 4 then "4th"
    else IntToDecimal(num) + "th"
  }

  /** The number can be read back from its ordinal. */
  lemma OrdinalReadsBack(num: int)
    ensures var s := GetChildOrdinal(num);
      IntToDecimal(num) == s[..|s| - 2] && IntValue(s[..|s| - 2]) == num
  {
    var s := GetChildOrdinal(num);
    assert s[..|s| - 2] == IntToDecimal(num);
    IntToDecimalRoundTrip(num);
  }

  /** Different child numbers get different labels. */
  lemma OrdinalInjective(a: int, b: int)
    requires GetChildOrdinal(a) == GetChildOrdinal(b)
    ensures a == b
  {
    OrdinalReadsBack(a);
    OrdinalReadsBack(b);
  }
}

=== FILE: decimal.dfy ===
/**
 Decimal rendering of integers, as Python's `str(n)` and f-strings produce it:
 digits without leading zeros, a leading '-' for negative numbers. Used for the
 `child_<k>` member names and the `<n>th` ordinals. The parsers are the
 partners that show the rendering loses no information.
 */
module Decimal {

  predicate IsDigit(c: char) {
    '0' <= c <= '9'
  }

  predicate AllDigits(s: string) {
    forall i :: 0 <= i < |s| ==> IsDigit(s[i])
  }

  function DigitChar(d: nat): (c: char)
    requires d < 10
    ensures IsDigit(c)
  {
    (('0' as int) + d) as char
  }

  function DigitValue(c: char): (d: nat)
    requires IsDigit(c)
    ensures d < 10
  {
    (c as int) - ('0' as int)
  }

  /** `str(n)` for a non-negative integer. */
  function NatToDecimal(n: nat): (s: string)
    ensures |s| >= 1
    ensures AllDigits(s)
    ensures s[0] == '0' ==> n == 0
    decreases n
  {
    if n < 10 then [DigitChar(n)] else NatToDecimal(n / 10) + [DigitChar(n % 10)]
  }

  /** `str(i)` for any integer. */
  function IntToDecimal(i: int): (s: string)
    ensures |s| >= 1
    ensures i >= 0 ==> AllDigits(s)
    ensures i < 0 <==> s[0] == '-'
  {
    if i < 0 then "-" + NatToDecimal(-i) else NatToDecimal(i)
  }

  /** `int(s)` for a string of digits. */
  function DecimalValue(s: string): nat
    requires AllDigits(s)
    decreases |s|
  {
    if s == [] then 0 else DecimalValue(s[..|s| - 1]) * 10 + DigitValue(s[|s| - 1])
  }

  /** `int(s)` for an optionally signed string of digits. */
  function IntValue(s: string): int
    requires |s| >= 1
    requires s[0] == '-' ==> AllDigits(s[1..])
    requires s[0] != '-' ==> AllDigits(s)
  {
    if s[0] == '-' then 0 - DecimalValue(s[1..]) else DecimalValue(s)
  }

  lemma {:induction false} NatToDecimalRoundTrip(n: nat)
    ensures DecimalValue(NatToDecimal(n)) == n
    decreases n
  {
    if n >= 10 {
      var s := NatToDecimal(n);
      assert s[..|s| - 1] == NatToDecimal(n / 10);
      NatToDecimalRoundTrip(n / 10);
    }
  }

  lemma IntToDecimalRoundTrip(i: int)
    ensures IntValue(IntToDecimal(i)) == i
  {
    if i < 0 {
      assert IntToDecimal(i)[1..] == NatToDecimal(-i);
      NatToDecimalRoundTrip(-i);
    } else {
      NatToDecimalRoundTrip(i);
    }
  }

  lemma NatToDecimalInjective(a: nat, b: nat)
    requires NatToDecimal(a) == NatToDecimal(b)
    ensures a == b
  {
    NatToDecimalRoundTrip(a);
    NatToDecimalRoundTrip(b);
  }

  lemma IntToDecimalInjective(a: int, b: int)
    requires IntToDecimal(a) == IntToDecimal(b)
    ensures a == b
  {
    IntToDecimalRoundTrip(a);
    IntToDecimalRoundTrip(b);
  }
}

=== FILE: engine.dfy ===
/**
 The per-household aggregation step: derive the household size, run every
 program formula on the same income and size, sum the eight programs and add
 them to market income. The Flask handlers evaluate exactly this at every
 point of their sweeps.
 */
module Engine {
  import opened Basics
  import opened Programs

  /** One household at one point: the earner's income, the spouse's income (always
      counted, whatever the marital status), whether it files as married, and the
      number of children (unvalidated: any integer flows through). */
  datatype Household = Household(
    employmentIncome: real,
    spouseIncome: real,
    married: bool,
    numChildren: int)

  /** Program amounts and derived aggregates for one household. */
  datatype BenefitResult = BenefitResult(
    snap: real,
    wic: real,
    medicaid: real,
    chip: real,
    premiumTaxCredit: real,
    eitc: real,
    ctc: real,
    cdcc: real,
    housingSubsidy: real,
    totalBenefits: real,
    netIncome: real,
    marketIncome: real,
    householdSize: int,
    federalPovertyGuideline: real,
    marginalTaxRate: real)

  /** The number of young children WIC counts: at most two. */
  function WicChildren(numChildren: int): int {
    MinInt(numChildren, 2)
  }

  /** Every program evaluated on one combined income, for a household that
      files as married or not and has `numChildren` children. */
  function Assess(totalIncome: real, married: bool, numChildren: int): (r: BenefitResult)
    ensures r.marketIncome == totalIncome
    ensures r.householdSize == 1 + (if married then 1 else 0) + numChildren
    ensures r.federalPovertyGuideline == Fpg(r.householdSize) as real
    // every program sees the same income and the same household size
    ensures r.snap == Snap(totalIncome, r.householdSize)
    ensures r.medicaid == MedicaidValue(totalIncome, r.householdSize, numChildren)
    ensures r.eitc == Eitc(totalIncome, numChildren, married)
    ensures r.wic == (if totalIncome > 1.85 * r.federalPovertyGuideline then 0.0
                      else 600.0 * (if numChildren < 2 then numChildren else 2) as real)
    ensures r.ctc == 2000.0 * numChildren as real
    ensures r.cdcc == 1000.0 * (if numChildren <= 0 then 0 else if numChildren >= 3 then 3 else numChildren) as real
    ensures r.chip == 0.0 && r.housingSubsidy == 0.0
    // the premium tax credit only where Medicaid is worth nothing
    ensures r.medicaid != 0.0 ==> r.premiumTaxCredit == 0.0
    ensures r.medicaid == 0.0 ==> r.premiumTaxCredit == Ptc(totalIncome, r.householdSize)
    ensures r.totalBenefits == r.snap + r.wic + r.medicaid + r.chip + r.premiumTaxCredit + r.eitc + r.ctc + r.cdcc
    ensures r.netIncome == totalIncome + r.totalBenefits
    ensures r.marginalTaxRate == MarginalRate(totalIncome)
    // with a real household no program subtracts anything
    ensures numChildren >= 0 && totalIncome >= 0.0 ==> r.totalBenefits >= 0.0 && r.netIncome >= totalIncome
  {
    var householdSize := 1 + (if married then 1 else 0) + numChildren;
    var snap := Snap(totalIncome, householdSize);
    var wic := Wic(totalIncome, householdSize, WicChildren(numChildren));
    var medicaid := MedicaidValue(totalIncome, householdSize, numChildren);
    var chip := 0.0;
    var ptc := if medicaid == 0.0 then Ptc(totalIncome, householdSize) else 0.0;
    var eitc := Eitc(totalIncome, numChildren, married);
    var ctc := Ctc(numChildren);
    var cdcc := Cdcc(numChildren);
    var totalBenefits := snap + wic + medicaid + chip + ptc + eitc + ctc + cdcc;
    BenefitResult(
      snap, wic, medicaid, chip, ptc, eitc, ctc, cdcc, 0.0,
      totalBenefits, totalIncome + totalBenefits, totalIncome,
      householdSize, Fpg(householdSize) as real, MarginalRate(totalIncome))
  }

  /** A household's result: the spouse's income is always pooled into the
      total, whatever the marital status. */
  function Evaluate(h: Household): (r: BenefitResult)
    ensures r.marketIncome == h.employmentIncome + h.spouseIncome
    ensures r.householdSize == 1 + (if h.married then 1 else 0) + h.numChildren
  {
    Assess(h.employmentIncome + h.spouseIncome, h.married, h.numChildren)
  }

  /** The household net income the sweeps compare. */
  function NetIncome(h: Household): real {
    Evaluate(h).netIncome
  }

  /** Only the household's combined income matters: who earns it does not. */
  lemma EvaluatePoolsIncome(h1: Household, h2: Household)
    requires h1.employmentIncome + h1.spouseIncome == h2.employmentIncome + h2.spouseIncome
    requires h1.married == h2.married && h1.numChildren == h2.numChildren
    ensures Evaluate(h1) == Evaluate(h2)
  {
  }

  /** A benefit cliff: a single adult without children who earns 1000 more
      crosses 138% of the guideline, loses the 6000 Medicaid value, gains only
      a 4580 premium tax credit, and ends up with less net income. */
  lemma MedicaidCliff()
    ensures NetIncome(Household(20000.0, 0.0, false, 0)) == 26000.0
    ensures NetIncome(Household(21000.0, 0.0, false, 0)) == 25580.0
    ensures Evaluate(Household(20000.0, 0.0, false, 0)).medicaid == 6000.0
    ensures Evaluate(Household(21000.0, 0.0, false, 0)).medicaid == 0.0
    ensures Evaluate(Household(21000.0, 0.0, false, 0)).premiumTaxCredit == 4580.0
  {
    assert Ptc(21000.0, 1) == 4580.0 by {
      assert 21000.0 / 15060.0 <= 1.5;
    }
  }

  /** A single earner with 20000 and no spouse income, for 0 through 4 children:
      each added child raises net income. */
  lemma SingleEarnerNetIncomes()
    ensures NetIncome(Household(20000.0, 0.0, false, 0)) == 26000.0
    ensures NetIncome(Household(20000.0, 0.0, false, 1)) == 31015.0
    ensures NetIncome(Household(20000.0, 0.0, false, 2)) == 42996.0
    ensures NetIncome(Household(20000.0, 0.0, false, 3)) == 52306.0
    ensures NetIncome(Household(20000.0, 0.0, false, 4)) == 59490.0
  {
    SingleEarner0();
    SingleEarner1();
    SingleEarner2();
    SingleEarner3();
    SingleEarner4();
  }

  // One evaluation per lemma keeps each arithmetic proof small.

  lemma SingleEarner0()
    ensures NetIncome(Household(20000.0, 0.0, false, 0)) == 26000.0
  {
  }

  lemma SingleEarner1()
    ensures NetIncome(Household(20000.0, 0.0, false, 1)) == 31015.0
  {
  }

  lemma SingleEarner2()
    ensures NetIncome(Household(20000.0, 0.0, false, 2)) == 42996.0
  {
  }

  lemma SingleEarner3()
    ensures NetIncome(Household(20000.0, 0.0, false, 3)) == 52306.0
  {
  }

  lemma SingleEarner4()
    ensures NetIncome(Household(20000.0, 0.0, false, 4)) == 59490.0
  {
  }
}

=== FILE: grids.dfy ===
/**
 Two-dimensional sweeps flattened into one sequence. A sweep over an outer axis
 (`rows`) and an inner axis (`cols`) emits `cell(a, b)` for every outer index `a`
 and, inside it, every inner index `b`, in that order — the shape of two nested
 Python `for` loops that append to one list. Swapping the loops (the transposed
 sweep) produces the same cells in a different order: same multiset.
 */
module Grids {
  import opened Basics

  /** The cells of outer position `a`, in inner order. */
  function Row<T>(a: nat, cols: nat, cell: (nat, nat) -> T): (r: seq<T>)
    ensures |r| == cols
  {
    seq(cols, b requires 0 <= b < cols => cell(a, b))
  }

  /** The cells at inner position `b`, one per outer position, in outer order. */
  function Column<T>(rows: nat, b: nat, cell: (nat, nat) -> T): (r: seq<T>)
    ensures |r| == rows
  {
    seq(rows, a requires 0 <= a < rows => cell(a, b))
  }

  /** The cell function with its two axes swapped. */
  function Transpose<T>(cell: (nat, nat) -> T): (nat, nat) -> T {
    (b: nat, a: nat) => cell(a, b)
  }

  /** The nested-loop sweep: outer index `a` in `0..rows`, inner `b` in `0..cols`. */
  function RowMajor<T>(rows: nat, cols: nat, cell: (nat, nat) -> T): (r: seq<T>)
    ensures |r| == rows * cols
    decreases rows
  {
    if rows == 0 then [] else RowMajor(rows - 1, cols, cell) + Row(rows - 1, cols, cell)
  }

  /** Position `t` of the sweep holds the cell at outer index `t / cols` and
      inner index `t % cols`. */
  lemma {:induction false} RowMajorPointwise<T>(rows: nat, cols: nat, cell: (nat, nat) -> T)
    ensures forall t :: 0 <= t < |RowMajor(rows, cols, cell)| ==>
      RowMajor(rows, cols, cell)[t] == cell(t / cols, t % cols)
    decreases rows
  {
    if rows > 0 {
      RowMajorPointwise(rows - 1, cols, cell);
      var prefix := RowMajor(rows - 1, cols, cell);
      var r := RowMajor(rows, cols, cell);
      assert r == prefix + Row(rows - 1, cols, cell);
      forall t | |prefix| <= t < |r|
        ensures r[t] == cell(t / cols, t % cols)
      {
        DivModOf(rows - 1, t - |prefix|, cols);
      }
    }
  }

  /** Sweeps whose cells agree on the grid are equal. */
  lemma {:induction false} RowMajorCongruent<T>(rows: nat, cols: nat, c1: (nat, nat) -> T, c2: (nat, nat) -> T)
    requires forall a: nat, b: nat :: a < rows && b < cols ==> c1(a, b) == c2(a, b)
    ensures RowMajor(rows, cols, c1) == RowMajor(rows, cols, c2)
    decreases rows
  {
    if rows > 0 {
      RowMajorCongruent(rows - 1, cols, c1, c2);
      assert Row(rows - 1, cols, c1) == Row(rows - 1, cols, c2);
    }
  }

  /** Widening every row by one inner position adds exactly the new column. */
  lemma {:induction false} AppendColumn<T>(rows: nat, cols: nat, cell: (nat, nat) -> T)
    ensures multiset(RowMajor(rows, cols + 1, cell))
         == multiset(RowMajor(rows, cols, cell)) + multiset(Column(rows, cols, cell))
    decreases rows
  {
    if rows > 0 {
      var a := rows - 1;
      AppendColumn(a, cols, cell);
      var last := cell(a, cols);
      assert Row(a, cols + 1, cell) == Row(a, cols, cell) + [last];
      assert Column(rows, cols, cell) == Column(a, cols, cell) + [last];
    }
  }

  /** Swapping the two loops reorders the output but keeps every cell. */
  lemma {:induction false} TransposeSameMultiset<T>(rows: nat, cols: nat, cell: (nat, nat) -> T)
    ensures multiset(RowMajor(rows, cols, cell)) == multiset(RowMajor(cols, rows, Transpose(cell)))
    decreases rows
  {
    if rows > 0 {
      var a := rows - 1;
      TransposeSameMultiset(a, cols, cell);
      AppendColumn(cols, a, Transpose(cell));
      assert Column(cols, a, Transpose(cell)) == Row(a, cols, cell);
    }
  }
}

=== FILE: marginal.dfy ===
/**
 Marginal-child records and the two orders in which the system emits them.
 A record says, for one income and one child count `n >= 1`, how much net
 income the n-th child adds over `n - 1` children at the same income. The
 Flask sweep emits them income-major (every child count for one income, then
 the next income); the dashboard computation emits them children-major (every
 income for one child count, then the next). Both emit the same records.
 */
module Marginal {
  import opened Basics
  import opened Grids

  datatype MarginalRecord = MarginalRecord(
    income: int,
    numChildren: int,
    marginalBenefit: real,
    netIncome: real)

  /** The record for the `numChildren`-th child from the two net incomes it compares. */
  function Difference(income: int, numChildren: int, net: real, previousNet: real): MarginalRecord {
    MarginalRecord(income, numChildren, net - previousNet, net)
  }

  /** Integer division keeps an index inside its block. */
  lemma BlockIndex(t: nat, width: nat, blocks: nat)
    requires t < blocks * width
    ensures width > 0 && t / width < blocks
  {
    PositiveFactor(blocks, width);
    var q := t / width;
    assert (blocks - q) * width > 0 by {
      assert (blocks - q) * width == blocks * width - q * width;
    }
    PositiveFactor(blocks - q, width);
  }

  lemma PositiveFactor(x: int, w: nat)
    requires x * w > 0
    ensures x > 0 && w > 0
  {
  }

  // ---------------------------------------------------------------------------
  // Income-major: the outer loop runs over incomes, the inner over 1..maxChildren

  /** The record at income index `i` and child offset `j` of the income-major
      sweep, for a net income given as a function of (income, number of
      children); an index past the end yields an unused placeholder. */
  function IncomeMajorRecord(incomes: seq<int>, net: (int, nat) -> real, i: nat, j: nat): (r: MarginalRecord)
    ensures i < |incomes| ==> r == Difference(incomes[i], j + 1, net(incomes[i], j + 1), net(incomes[i], j))
  {
    var income := if i < |incomes| then incomes[i] else 0;
    Difference(income, j + 1, net(income, j + 1), net(income, j))
  }

  function IncomeMajorCell(incomes: seq<int>, net: (int, nat) -> real): (nat, nat) -> MarginalRecord {
    (i: nat, j: nat) => IncomeMajorRecord(incomes, net, i, j)
  }

  function IncomeMajorRecords(incomes: seq<int>, maxChildren: nat, net: (int, nat) -> real): (r: seq<MarginalRecord>)
    ensures |r| == maxChildren * |incomes|
    ensures forall t :: 0 <= t < |r| ==>
      && t / maxChildren < |incomes|
      && r[t] == Difference(incomes[t / maxChildren], t % maxChildren + 1,
                            net(incomes[t / maxChildren], t % maxChildren + 1),
                            net(incomes[t / maxChildren], t % maxChildren))
    ensures forall t :: 0 <= t < |r| ==> 1 <= r[t].numChildren <= maxChildren
  {
    var cell := IncomeMajorCell(incomes, net);
    var r := RowMajor(|incomes|, maxChildren, cell);
    RowMajorPointwise(|incomes|, maxChildren, cell);
    forall t | 0 <= t < |r|
      ensures t / maxChildren < |incomes|
      ensures r[t] == Difference(incomes[t / maxChildren], t % maxChildren + 1,
                                 net(incomes[t / maxChildren], t % maxChildren + 1),
                                 net(incomes[t / maxChildren], t % maxChildren))
    {
      BlockIndex(t, maxChildren, |incomes|);
    }
    r
  }

  /** A one-income sweep over four children: four records, child 1 to child 4. */
  lemma OneIncomeFourChildren(x: int, net: (int, nat) -> real)
    ensures IncomeMajorRecords([x], 4, net) == [
      Difference(x, 1, net(x, 1), net(x, 0)),
      Difference(x, 2, net(x, 2), net(x, 1)),
      Difference(x, 3, net(x, 3), net(x, 2)),
      Difference(x, 4, net(x, 4), net(x, 3))]
  {
    var r := IncomeMajorRecords([x], 4, net);
    assert |r| == 4;
    assert r[0].numChildren == 1 && r[1].numChildren == 2 && r[2].numChildren == 3 && r[3].numChildren == 4;
    assert r == [r[0], r[1], r[2], r[3]];
  }

  /** The income-major nested loops as the Flask handler runs them: for each
      income, walk the child counts `0..maxChildren`, remember the previous net
      income, and emit a record for every count after the first. */
  method IncomeMajorSweep(incomes: seq<int>, maxChildren: nat, net: (int, nat) -> real)
    returns (records: seq<MarginalRecord>)
    ensures records == IncomeMajorRecords(incomes, maxChildren, net)
  {
    ghost var cell := IncomeMajorCell(incomes, net);
    records := [];
    var k := 0;
    while k < |incomes|
      invariant 0 <= k <= |incomes|
      invariant records == RowMajor(k, maxChildren, cell)
    {
      var income := incomes[k];
      var previous: Option<real> := None;
      var row: seq<MarginalRecord> := [];
      var kids := 0;
      while kids <= maxChildren
        invariant 0 <= kids <= maxChildren + 1
        invariant kids == 0 ==> previous == None
        invariant kids > 0 ==> previous == Some(net(income, kids - 1))
        invariant |row| == if kids == 0 then 0 else kids - 1
        invariant forall b :: 0 <= b < |row| ==> row[b] == cell(k, b)
      {
        var current := net(income, kids);
        if previous.Some? && kids > 0 {
          row := row + [Difference(income, kids, current, previous.value)];
          assert row[kids - 1] == IncomeMajorRecord(incomes, net, k, kids - 1);
        }
        previous := Some(current);
        kids := kids + 1;
      }
      assert row == Row(k, maxChildren, cell);
      records := records + row;
      k := k + 1;
    }
  }

  // ---------------------------------------------------------------------------
  // Children-major: the outer loop runs over 1..maxChildren, the inner over incomes

  /** Net incomes arranged as one array per child count `0..maxChildren`, each
      with one entry per income point. */
  predicate NetTableShape(nets: seq<seq<real>>, maxChildren: nat, count: nat) {
    |nets| == maxChildren + 1 && forall k :: 0 <= k < |nets| ==> |nets[k]| == count
  }

  /** The record at child offset `j` and income index `i` of the children-major
      sweep, read from a table of net incomes; an index outside the table
      yields an unused placeholder. */
  function ChildrenMajorRecord(points: seq<int>, nets: seq<seq<real>>, j: nat, i: nat): (r: MarginalRecord)
    ensures i < |points| && j + 1 < |nets| && i < |nets[j]| && i < |nets[j + 1]|
      ==> r == Difference(points[i], j + 1, nets[j + 1][i], nets[j][i])
  {
    if i < |points| && j + 1 < |nets| && i < |nets[j]| && i < |nets[j + 1]| then
      Difference(points[i], j + 1, nets[j + 1][i], nets[j][i])
    else
      MarginalRecord(0, 0, 0.0, 0.0)
  }

  function ChildrenMajorCell(points: seq<int>, nets: seq<seq<real>>): (nat, nat) -> MarginalRecord {
    (j: nat, i: nat) => ChildrenMajorRecord(points, nets, j, i)
  }

  function ChildrenMajorRecords(points: seq<int>, nets: seq<seq<real>>, maxChildren: nat): (r: seq<MarginalRecord>)
    requires NetTableShape(nets, maxChildren, |points|)
    ensures |r| == maxChildren * |points|
    ensures forall t :: 0 <= t < |r| ==>
      && 0 < |points| && t / |points| < maxChildren
      && r[t] == Difference(points[t % |points|], t / |points| + 1,
                            nets[t / |points| + 1][t % |points|],
                            nets[t / |points|][t % |points|])
    ensures forall t :: 0 <= t < |r| ==> 1 <= r[t].numChildren <= maxChildren
  {
    ChildrenMajorPointwise(points, nets, maxChildren);
    RowMajor(maxChildren, |points|, ChildrenMajorCell(points, nets))
  }

  lemma ChildrenMajorPointwise(points: seq<int>, nets: seq<seq<real>>, maxChildren: nat)
    requires NetTableShape(nets, maxChildren, |points|)
    ensures var r := RowMajor(maxChildren, |points|, ChildrenMajorCell(points, nets));
      && (forall t :: 0 <= t < |r| ==>
        && 0 < |points| && t / |points| < maxChildren
        && r[t] == Difference(points[t % |points|], t / |points| + 1,
                              nets[t / |points| + 1][t % |points|],
                              nets[t / |points|][t % |points|]))
      && (forall t :: 0 <= t < |r| ==> 1 <= r[t].numChildren <= maxChildren)
  {
    var r := RowMajor(maxChildren, |points|, ChildrenMajorCell(points, nets));
    RowMajorPointwise(maxChildren, |points|, ChildrenMajorCell(points, nets));
    forall t | 0 <= t < |r|
      ensures 0 < |points| && t / |points| < maxChildren
      ensures r[t] == Difference(points[t % |points|], t / |points| + 1,
                                 nets[t / |points| + 1][t % |points|],
                                 nets[t / |points|][t % |points|])
      ensures 1 <= r[t].numChildren <= maxChildren
    {
      BlockIndex(t, |points|, maxChildren);
      var j, i := t / |points|, t % |points|;
      assert |nets[j]| == |points| && |nets[j + 1]| == |points|;
      assert r[t] == ChildrenMajorRecord(points, nets, j, i);
    }
  }

  /** The dashboard's difference loops: for each child count `1..maxChildren`,
      walk the income points and compare that count's net income with the
      previous count's at the same point. */
  method ChildrenMajorSweep(points: seq<int>, nets: seq<seq<real>>, maxChildren: nat)
    returns (records: seq<MarginalRecord>)
    requires NetTableShape(nets, maxChildren, |points|)
    ensures records == ChildrenMajorRecords(points, nets, maxChildren)
  {
    ghost var cell := ChildrenMajorCell(points, nets);
    records := [];
    var kids := 1;
    while kids <= maxChildren
      invariant 1 <= kids <= maxChildren + 1
      invariant records == RowMajor(kids - 1, |points|, cell)
    {
      var current, previous := nets[kids], nets[kids - 1];
      var row: seq<MarginalRecord> := [];
      var i := 0;
      while i < |points|
        invariant 0 <= i <= |points|
        invariant |row| == i
        invariant forall b :: 0 <= b < i ==> row[b] == cell(kids - 1, b)
      {
        row := row + [Difference(points[i], kids, current[i], previous[i])];
        assert row[i] == ChildrenMajorRecord(points, nets, kids - 1, i);
        i := i + 1;
      }
      assert row == Row(kids - 1, |points|, cell);
      records := records + row;
      kids := kids + 1;
    }
  }

  /** The net-income arrays a children-major computation would hold if its
      simulator answered with `net` at every (income, child count). */
  function NetTable(points: seq<int>, maxChildren: nat, net: (int, nat) -> real): (nets: seq<seq<real>>)
    ensures NetTableShape(nets, maxChildren, |points|)
  {
    seq(maxChildren + 1, (k: int) requires 0 <= k <= maxChildren =>
      seq(|points|, (i: int) requires 0 <= i < |points| => net(points[i], k)))
  }

  /** Batching by child count instead of by income changes only the order of
      the records: for the same net-income function both sweeps emit the same
      multiset of records. */
  lemma ChildrenMajorMatchesIncomeMajor(points: seq<int>, maxChildren: nat, net: (int, nat) -> real)
    ensures multiset(ChildrenMajorRecords(points, NetTable(points, maxChildren, net), maxChildren))
         == multiset(IncomeMajorRecords(points, maxChildren, net))
  {
    var nets := NetTable(points, maxChildren, net);
    var byChildren := ChildrenMajorCell(points, nets);
    var byIncome := IncomeMajorCell(points, net);
    forall j: nat, i: nat | j < maxChildren && i < |points|
      ensures byChildren(j, i) == Transpose(byIncome)(j, i)
    {
    }
    RowMajorCongruent(maxChildren, |points|, byChildren, Transpose(byIncome));
    TransposeSameMultiset(|points|, maxChildren, byIncome);
  }
}

=== FILE: mock_api.dfy ===
/**
 The three JSON endpoints of the mock benefit service: a single evaluation
 (`/api/calculate`), a benefit-cliff sweep over earned income with the
 household held fixed (`/api/calculate_cliff`), and the marginal value of each
 additional child across an income sweep (`/api/marginal_child`). A request
 body is a record of optional fields; a missing field takes the handler's
 default, exactly as `dict.get(key, default)` does.
 */
module MockApi {
  import opened Basics
  import opened PyRange
  import opened Programs
  import opened Engine
  import opened Marginal

  /** The fields a request body may carry. `maritalStatus` is compared with the
      literal "married"; every other value, and its absence, means single. */
  datatype Params = Params(
    employmentIncome: Option<real>,
    spouseIncome: Option<real>,
    maritalStatus: Option<string>,
    numChildren: Option<int>,
    incomeMin: Option<int>,
    incomeMax: Option<int>,
    incomeStep: Option<int>)

  /** The error a sweep reports instead of a list: its income range could not be built. */
  datatype ApiError = BadIncomeRange(reason: RangeError)

  predicate IsMarried(p: Params) {
    p.maritalStatus == Some("married")
  }

  /** The household a handler evaluates for one earned income and one child count;
      the spouse's income is added whatever the marital status. */
  function HouseholdAt(p: Params, income: real, numChildren: int): (h: Household)
    ensures h.employmentIncome == income && h.numChildren == numChildren
    ensures h.spouseIncome == p.spouseIncome.GetOr(0.0)
    ensures h.married <==> p.maritalStatus == Some("married")
  {
    Household(income, p.spouseIncome.GetOr(0.0), IsMarried(p), numChildren)
  }

  // ---------------------------------------------------------------------------
  // /api/calculate

  function CalculateBenefits(p: Params): (r: BenefitResult)
    ensures r.marketIncome == p.employmentIncome.GetOr(0.0) + p.spouseIncome.GetOr(0.0)
    ensures r.householdSize == 1 + (if IsMarried(p) then 1 else 0) + p.numChildren.GetOr(0)
    ensures r.netIncome == r.marketIncome + r.totalBenefits
    ensures r.eitc == Eitc(r.marketIncome, p.numChildren.GetOr(0), IsMarried(p))
    ensures r == Assess(p.employmentIncome.GetOr(0.0) + p.spouseIncome.GetOr(0.0), IsMarried(p), p.numChildren.GetOr(0))
  {
    Evaluate(HouseholdAt(p, p.employmentIncome.GetOr(0.0), p.numChildren.GetOr(0)))
  }

  /** Only the exact status "married" changes the result: any other status, or
      none, is evaluated like "single". */
  lemma OnlyMarriedCounts(p: Params, status: string)
    requires status != "married"
    ensures CalculateBenefits(p.(maritalStatus := Some(status))) == CalculateBenefits(p.(maritalStatus := None))
  {
  }

  // ---------------------------------------------------------------------------
  // /api/calculate_cliff

  /** One element of the cliff response: the grid income and the program amounts
      at that income (the response leaves out market income, household size,
      guideline and tax rate). */
  datatype CliffPoint = CliffPoint(
    income: int,
    snap: real,
    wic: real,
    medicaid: real,
    chip: real,
    premiumTaxCredit: real,
    eitc: real,
    ctc: real,
    cdcc: real,
    housingSubsidy: real,
    totalBenefits: real,
    netIncome: real)

  /** The cliff-point for `income`, with everything but the earned income taken from the request. */
  function CliffPointAt(p: Params, income: int): (c: CliffPoint)
    ensures c.income == income
    ensures c.netIncome == income as real + p.spouseIncome.GetOr(0.0) + c.totalBenefits
    ensures c.totalBenefits == c.snap + c.wic + c.medicaid + c.chip + c.premiumTaxCredit + c.eitc + c.ctc + c.cdcc
  {
    var r := Evaluate(HouseholdAt(p, income as real, p.numChildren.GetOr(0)));
    CliffPoint(income, r.snap, r.wic, r.medicaid, r.chip, r.premiumTaxCredit, r.eitc, r.ctc,
               r.cdcc, r.housingSubsidy, r.totalBenefits, r.netIncome)
  }

  /** The cliff sweep's income axis: defaults 0, 100000 and 1000. */
  function CliffGrid(p: Params): (g: Result<seq<int>, RangeError>)
    ensures g.Err? <==> p.incomeStep.GetOr(1000) == 0
  {
    IncomeGrid(p.incomeMin.GetOr(0), p.incomeMax.GetOr(100000), p.incomeStep.GetOr(1000))
  }

  function CalculateCliff(p: Params): (r: Result<seq<CliffPoint>, ApiError>)
    ensures r.Err? <==> p.incomeStep.GetOr(1000) == 0
    ensures r.Ok? ==> |r.value| == |CliffGrid(p).value|
    ensures r.Ok? ==> forall k :: 0 <= k < |r.value| ==>
      r.value[k] == CliffPointAt(p, CliffGrid(p).value[k])
  {
    match CliffGrid(p)
    case Err(e) => Err(BadIncomeRange(e))
    case Ok(incomes) =>
      Ok(seq(|incomes|, k requires 0 <= k < |incomes| => CliffPointAt(p, incomes[k])))
  }

  /** The cliff points carry the grid incomes, in grid order. */
  lemma CliffIncomes(p: Params)
    requires CalculateCliff(p).Ok?
    ensures forall k :: 0 <= k < |CalculateCliff(p).value| ==> CalculateCliff(p).value[k].income == CliffGrid(p).value[k]
  {
  }

  /** A cliff response has a point at income `x` exactly when `x` lies on the
      inclusive grid from the minimum to the maximum. */
  lemma CliffCoversGrid(p: Params, x: int)
    requires p.incomeStep.GetOr(1000) > 0
    ensures (exists k :: 0 <= k < |CalculateCliff(p).value| && CalculateCliff(p).value[k].income == x)
        <==> p.incomeMin.GetOr(0) <= x <= p.incomeMax.GetOr(100000)
             && (x - p.incomeMin.GetOr(0)) % p.incomeStep.GetOr(1000) == 0
  {
    var points := CalculateCliff(p).value;
    var incomes := CliffGrid(p).value;
    CliffIncomes(p);
    GridMembership(p.incomeMin.GetOr(0), p.incomeMax.GetOr(100000), p.incomeStep.GetOr(1000), x);
    if x in incomes {
      var k :| 0 <= k < |incomes| && incomes[k] == x;
      assert points[k].income == x;
    }
  }

  /** With a positive step the cliff points come in strictly ascending income order. */
  lemma CliffAscending(p: Params)
    requires p.incomeStep.GetOr(1000) > 0
    ensures forall i, j :: 0 <= i < j < |CalculateCliff(p).value| ==>
      CalculateCliff(p).value[i].income < CalculateCliff(p).value[j].income
  {
    CliffIncomes(p);
    StepsOrdered(p.incomeMin.GetOr(0), p.incomeMax.GetOr(100000) + 1, p.incomeStep.GetOr(1000));
  }

  /** The sweep holds the household fixed: every amount of every point is what
      `/api/calculate` returns for that earned income. */
  lemma CliffMatchesCalculate(p: Params, k: nat)
    requires CalculateCliff(p).Ok? && k < |CalculateCliff(p).value|
    ensures var c, r := CalculateCliff(p).value[k], CalculateBenefits(p.(employmentIncome := Some(CliffGrid(p).value[k] as real)));
      && c.snap == r.snap && c.wic == r.wic && c.medicaid == r.medicaid && c.chip == r.chip
      && c.premiumTaxCredit == r.premiumTaxCredit && c.eitc == r.eitc && c.ctc == r.ctc
      && c.cdcc == r.cdcc && c.housingSubsidy == r.housingSubsidy
      && c.totalBenefits == r.totalBenefits && c.netIncome == r.netIncome
  {
  }

  // ---------------------------------------------------------------------------
  // /api/marginal_child

  /** The marginal sweep always compares 0 through 4 children, whatever the request says. */
  const MaxChildren: nat := 4

  /** Net income at one point of the marginal sweep: only the spouse's income
      and the marital status come from the request. */
  function SweepNet(spouseIncome: real, married: bool, income: int, numChildren: nat): real {
    NetIncome(Household(income as real, spouseIncome, married, numChildren))
  }

  function SweepNets(p: Params): (int, nat) -> real {
    var spouseIncome, married := p.spouseIncome.GetOr(0.0), IsMarried(p);
    (income: int, numChildren: nat) => SweepNet(spouseIncome, married, income, numChildren)
  }

  /** The marginal sweep's income axis: defaults 0, 200000 and 2500. */
  function MarginalGrid(p: Params): (g: Result<seq<int>, RangeError>)
    ensures g.Err? <==> p.incomeStep.GetOr(2500) == 0
  {
    IncomeGrid(p.incomeMin.GetOr(0), p.incomeMax.GetOr(200000), p.incomeStep.GetOr(2500))
  }

  function CalculateMarginalChild(p: Params): (r: Result<seq<MarginalRecord>, ApiError>)
    ensures r.Err? <==> p.incomeStep.GetOr(2500) == 0
    ensures r.Ok? ==> |r.value| == MaxChildren * |MarginalGrid(p).value|
    ensures r.Ok? ==> forall t :: 0 <= t < |r.value| ==>
      && t / MaxChildren < |MarginalGrid(p).value|
      && r.value[t].income == MarginalGrid(p).value[t / MaxChildren]
      && r.value[t].numChildren == t % MaxChildren + 1
      && r.value[t].netIncome == SweepNet(p.spouseIncome.GetOr(0.0), IsMarried(p), r.value[t].income, r.value[t].numChildren)
      && r.value[t].marginalBenefit
         == SweepNet(p.spouseIncome.GetOr(0.0), IsMarried(p), r.value[t].income, r.value[t].numChildren) - SweepNet(p.spouseIncome.GetOr(0.0), IsMarried(p), r.value[t].income, r.value[t].numChildren - 1)
  {
    match MarginalGrid(p)
    case Err(e) => Err(BadIncomeRange(e))
    case Ok(incomes) => Ok(IncomeMajorRecords(incomes, MaxChildren, SweepNets(p)))
  }

  /** The handler: build the grid, then run the income-major nested loops with
      the benefit engine as the net-income function. */
  method MarginalChildSweep(p: Params) returns (res: Result<seq<MarginalRecord>, ApiError>)
    ensures res == CalculateMarginalChild(p)
  {
    var grid := MarginalGrid(p);
    if grid.Err? {
      return Err(BadIncomeRange(grid.error));
    }
    var records := IncomeMajorSweep(grid.value, MaxChildren, SweepNets(p));
    return Ok(records);
  }

  /** The requested child count plays no part in the marginal sweep. */
  lemma MarginalChildIgnoresRequestedChildren(p: Params, n: Option<int>)
    ensures CalculateMarginalChild(p.(numChildren := n)) == CalculateMarginalChild(p)
  {
  }

  /** The example household's net incomes for 0 through 4 children. */
  lemma ExampleNets()
    ensures SweepNet(0.0, false, 20000, 0) == 26000.0
    ensures SweepNet(0.0, false, 20000, 1) == 31015.0
    ensures SweepNet(0.0, false, 20000, 2) == 42996.0
    ensures SweepNet(0.0, false, 20000, 3) == 52306.0
    ensures SweepNet(0.0, false, 20000, 4) == 59490.0
  {
    SingleEarnerNetIncomes();
  }

  /** A single filer at 20000: each of the first four children adds net income,
      by 5015, 11981, 9310 and 7184. */
  lemma MarginalChildExample()
    ensures var p := Params(None, None, Some("single"), None, Some(20000), Some(20000), None);
      CalculateMarginalChild(p) == Ok([
        MarginalRecord(20000, 1, 5015.0, 31015.0),
        MarginalRecord(20000, 2, 11981.0, 42996.0),
        MarginalRecord(20000, 3, 9310.0, 52306.0),
        MarginalRecord(20000, 4, 7184.0, 59490.0)])
  {
    var p := Params(None, None, Some("single"), None, Some(20000), Some(20000), None);
    assert Steps(22500, 20001, 2500) == [];
    assert Steps(20000, 20001, 2500) == [20000];
    assert MarginalGrid(p) == Ok([20000]);
    OneIncomeFourChildren(20000, SweepNets(p));
    ExampleNets();
  }
}

=== FILE: programs.dfy ===
/**
 The per-program formulas of the simplified 2024 benefit engine: the federal
 poverty guideline, SNAP, the Medicaid value proxy, the EITC, WIC, the child
 and dependent-care credits and the premium tax credit. Each is a total,
 piecewise-linear function of annual income (exact `real` arithmetic),
 household size and number of children.
 */
module Programs {
  import opened Basics

  // ---------------------------------------------------------------------------
  // Federal poverty guideline

  /** The 2024 guideline table for household sizes 1 through 8. */
  const FpgTable: map<int, int> := map[
    1 := 15060, 2 := 20440, 3 := 25820, 4 := 31200,
    5 := 36580, 6 := 41960, 7 := 47340, 8 := 52720]

  /** The guideline for a household size. Sizes up to 8 read the table, falling
      back to the size-8 entry for sizes the table lacks (zero or negative);
      larger households add 5380 per extra person. The table is itself linear,
      so for every real household the guideline is `15060 + 5380*(size - 1)`. */
  function Fpg(size: int): (r: int)
    ensures size >= 1 ==> r == 15060 + 5380 * (size - 1)
    ensures size <= 0 ==> r == 52720
    ensures r >= 15060
  {
    if size <= 8 then
      (if size in FpgTable then FpgTable[size] else FpgTable[8])
    else
      FpgTable[8] + (size - 8) * 5380
  }

  /** A larger household always has a strictly higher guideline. */
  lemma FpgStrictlyIncreasing(s: int, t: int)
    requires 1 <= s < t
    ensures Fpg(s) < Fpg(t)
  {
  }

  // ---------------------------------------------------------------------------
  // SNAP

  /** Maximum monthly allotment for household sizes 1 through 6. */
  const SnapMaxTable: map<int, int> := map[
    1 := 291, 2 := 535, 3 := 766, 4 := 973, 5 := 1155, 6 := 1386]

  /** Maximum monthly SNAP allotment: the table for sizes 1-6, otherwise
      `1386 + 200*(size - 6)` (which also yields the table's size-6 entry). */
  function SnapMaxMonthly(size: int): (r: int)
    ensures !(1 <= size <= 5) ==> r == 1386 + 200 * (size - 6)
    ensures size >= 1 ==> r >= 291
  {
    if size in SnapMaxTable then SnapMaxTable[size] else 1386 + (size - 6) * 200
  }

  /** The allotment grows strictly with household size. */
  lemma SnapMaxMonthlyIncreasing(s: int, t: int)
    requires 1 <= s < t
    ensures SnapMaxMonthly(s) < SnapMaxMonthly(t)
  {
  }

  /** Annual SNAP benefit: nothing above the gross-income limit of 130% of the
      guideline, otherwise twelve months of the maximum allotment reduced by 30%
      of monthly income, never below zero. */
  function Snap(income: real, size: int): (r: real)
    ensures r >= 0.0
    ensures income > 1.3 * Fpg(size) as real ==> r == 0.0
    ensures income >= 0.0 && size >= 1 ==> r <= 12.0 * SnapMaxMonthly(size) as real
    ensures r > 0.0 <==> income <= 1.3 * Fpg(size) as real && 0.025 * income < SnapMaxMonthly(size) as real
    ensures income <= 1.3 * Fpg(size) as real && 0.025 * income <= SnapMaxMonthly(size) as real
            ==> r == 12.0 * SnapMaxMonthly(size) as real - 0.3 * income
  {
    var monthlyIncome := income / 12.0;
    var grossLimit := Fpg(size) as real * 1.3;
    if income > grossLimit then 0.0
    else
      var maxMonthly := SnapMaxMonthly(size) as real;
      MaxReal(0.0, maxMonthly - monthlyIncome * 0.3) * 12.0
  }

  /** For a fixed household, more income never buys more SNAP. */
  lemma SnapNonIncreasing(x: real, y: real, size: int)
    requires x <= y
    ensures Snap(y, size) <= Snap(x, size)
  {
  }

  // ---------------------------------------------------------------------------
  // Medicaid (value proxy)

  /** Estimated annual Medicaid value: 3000 per child when there are children
      and income is under 200% of the guideline; otherwise 6000 for adult
      expansion eligibility under 138%; otherwise nothing. */
  function MedicaidValue(income: real, size: int, numChildren: int): (r: real)
    ensures r >= 0.0
    ensures r == 0.0 <==> income >= 1.38 * Fpg(size) as real && (numChildren <= 0 || income >= 2.0 * Fpg(size) as real)
    ensures numChildren > 0 && income < 2.0 * Fpg(size) as real ==> r == 3000.0 * numChildren as real
    ensures (numChildren <= 0 || income >= 2.0 * Fpg(size) as real) && income < 1.38 * Fpg(size) as real ==> r == 6000.0
  {
    var fpg := Fpg(size) as real;
    if numChildren > 0 && income < fpg * 2.0 then numChildren as real * 3000.0
    else if income < fpg * 1.38 then 6000.0
    else 0.0
  }

  /** The Medicaid value only ever drops as income rises: crossing a threshold
      loses it and nothing brings it back. */
  lemma MedicaidNonIncreasing(x: real, y: real, size: int, numChildren: int)
    requires x <= y
    ensures MedicaidValue(y, size, numChildren) <= MedicaidValue(x, size, numChildren)
  {
  }

  // ---------------------------------------------------------------------------
  // Earned income tax credit

  /** One EITC parameter set: the credit rises at `phaseInRate` up to
      `maxCredit`, stays flat from `plateauStart` to `phaseOutStart`, then
      falls at `phaseOutRate`. */
  datatype EitcSchedule = EitcSchedule(
    maxCredit: real,
    phaseInRate: real,
    plateauStart: real,
    phaseOutStart: real,
    phaseOutRate: real)

  /** Positive parameters, a plateau before the phase-out, and a phase-in that
      does not overshoot the maximum credit by the start of the plateau. */
  predicate WellFormed(s: EitcSchedule) {
    && s.maxCredit > 0.0
    && s.phaseInRate > 0.0
    && s.phaseOutRate > 0.0
    && 0.0 < s.plateauStart < s.phaseOutStart
    && s.plateauStart * s.phaseInRate <= s.maxCredit
  }

  /** The schedule for a number of children: buckets 0, 1, 2 and "anything
      else" (3 or more, and also any negative count); marriage only moves the
      phase-out start. */
  function EitcScheduleFor(numChildren: int, married: bool): (s: EitcSchedule)
    ensures WellFormed(s)
    ensures numChildren == 1 || numChildren == 2 ==> s.plateauStart * s.phaseInRate == s.maxCredit
    ensures numChildren == 0 || numChildren >= 3 || numChildren < 0 ==> s.plateauStart * s.phaseInRate < s.maxCredit
  {
    if numChildren == 0 then
      EitcSchedule(600.0, 0.0765, 7830.0, if married then 17640.0 else 9800.0, 0.0765)
    else if numChildren == 1 then
      EitcSchedule(3995.0, 0.34, 11750.0, if married then 29550.0 else 22300.0, 0.1598)
    else if numChildren == 2 then
      EitcSchedule(6604.0, 0.4, 16510.0, if married then 29550.0 else 22300.0, 0.2106)
    else
      EitcSchedule(7430.0, 0.45, 16510.0, if married then 29550.0 else 22300.0, 0.2106)
  }

  /** Married filers get the same schedule with a phase-out that starts no earlier. */
  lemma EitcMarriedPhaseOutLater(numChildren: int)
    ensures EitcScheduleFor(numChildren, true).phaseOutStart >= EitcScheduleFor(numChildren, false).phaseOutStart
    ensures EitcScheduleFor(numChildren, true).maxCredit == EitcScheduleFor(numChildren, false).maxCredit
    ensures EitcScheduleFor(numChildren, true).plateauStart == EitcScheduleFor(numChildren, false).plateauStart
    ensures EitcScheduleFor(numChildren, true)
         == EitcScheduleFor(numChildren, false).(phaseOutStart := EitcScheduleFor(numChildren, true).phaseOutStart)
  {
  }

  /** Scaling both sides of an inequality by a non-negative factor keeps it. */
  lemma ScaleMonotone(a: real, b: real, c: real)
    requires a <= b && c >= 0.0
    ensures a * c <= b * c
  {
    assert b * c - a * c == (b - a) * c;
  }

  /** The credit under one schedule. */
  function EitcUnder(s: EitcSchedule, income: real): (r: real)
    requires WellFormed(s)
    ensures income >= 0.0 ==> 0.0 <= r <= s.maxCredit
    ensures income > s.plateauStart ==> 0.0 <= r <= s.maxCredit
    ensures income <= s.plateauStart ==> r == MinReal(income * s.phaseInRate, s.maxCredit)
    ensures s.plateauStart < income <= s.phaseOutStart ==> r == s.maxCredit
    ensures income > s.phaseOutStart ==> r == MaxReal(0.0, s.maxCredit - (income - s.phaseOutStart) * s.phaseOutRate)
  {
    if income <= s.plateauStart then MinReal(income * s.phaseInRate, s.maxCredit)
    else if income <= s.phaseOutStart then s.maxCredit
    else
      var reduction := (income - s.phaseOutStart) * s.phaseOutRate;
      ScaleMonotone(0.0, income - s.phaseOutStart, s.phaseOutRate);
      assert reduction >= 0.0;
      MaxReal(0.0, s.maxCredit - reduction)
  }

  /** The credit for a filer; it is fully phased out once income reaches
      `phaseOutStart + maxCredit / phaseOutRate`. */
  function Eitc(income: real, numChildren: int, married: bool): (r: real)
    ensures income >= 0.0 ==> 0.0 <= r <= EitcScheduleFor(numChildren, married).maxCredit
    ensures var s := EitcScheduleFor(numChildren, married);
            income <= s.plateauStart ==> r == MinReal(income * s.phaseInRate, s.maxCredit)
    ensures var s := EitcScheduleFor(numChildren, married);
            s.plateauStart < income <= s.phaseOutStart ==> r == s.maxCredit
    ensures var s := EitcScheduleFor(numChildren, married);
            income > s.phaseOutStart ==> r == MaxReal(0.0, s.maxCredit - (income - s.phaseOutStart) * s.phaseOutRate)
    ensures var s := EitcScheduleFor(numChildren, married);
            income >= s.phaseOutStart + s.maxCredit / s.phaseOutRate ==> r == 0.0
  {
    EitcUnder(EitcScheduleFor(numChildren, married), income)
  }

  /** In the phase-in the credit never falls as income rises. */
  lemma EitcNonDecreasingInPhaseIn(numChildren: int, married: bool, x: real, y: real)
    requires x <= y <= EitcScheduleFor(numChildren, married).plateauStart
    ensures Eitc(x, numChildren, married) <= Eitc(y, numChildren, married)
  {
  }

  /** Past the start of the plateau the credit never rises with income. */
  lemma EitcNonIncreasingAbovePlateau(numChildren: int, married: bool, x: real, y: real)
    requires EitcScheduleFor(numChildren, married).plateauStart < x <= y
    ensures Eitc(y, numChildren, married) <= Eitc(x, numChildren, married)
  {
  }

  /** Past the start of the plateau the credit moves by at most `phaseOutRate`
      per dollar; in particular it has no jump where the phase-out begins. */
  lemma EitcLipschitzAbovePlateau(numChildren: int, married: bool, x: real, y: real)
    requires EitcScheduleFor(numChildren, married).plateauStart < x <= y
    ensures Abs(Eitc(y, numChildren, married) - Eitc(x, numChildren, married))
            <= EitcScheduleFor(numChildren, married).phaseOutRate * (y - x)
  {
  }

  /** The one- and two-child credits move by at most `phaseInRate` per dollar
      at every income: the phase-in meets the maximum exactly at the plateau
      (11750 * 0.34 = 3995, 16510 * 0.4 = 6604), so they have no jump anywhere. */
  lemma EitcContinuousForOneOrTwoChildren(numChildren: int, married: bool, x: real, y: real)
    requires numChildren == 1 || numChildren == 2
    requires x <= y
    ensures Abs(Eitc(y, numChildren, married) - Eitc(x, numChildren, married))
            <= EitcScheduleFor(numChildren, married).phaseInRate * (y - x)
  {
  }

  /** For no children and for three or more, the phase-in stops short of the
      maximum: the credit at the plateau start is strictly below the value just
      past it (598.995 against 600, and 7429.5 against 7430). */
  lemma EitcJumpsAtPlateau(numChildren: int, married: bool, x: real)
    requires numChildren == 0 || numChildren >= 3
    requires EitcScheduleFor(numChildren, married).plateauStart < x <= EitcScheduleFor(numChildren, married).phaseOutStart
    ensures Eitc(EitcScheduleFor(numChildren, married).plateauStart, numChildren, married) < Eitc(x, numChildren, married)
    ensures numChildren == 0 ==> Eitc(7830.0, 0, married) == 598.995 && Eitc(x, 0, married) == 600.0
    ensures numChildren >= 3 ==> Eitc(16510.0, numChildren, married) == 7429.5 && Eitc(x, numChildren, married) == 7430.0
  {
  }

  // ---------------------------------------------------------------------------
  // Child tax credit, child and dependent care credit, WIC

  /** Flat 2000 per child, no phase-out. */
  function Ctc(numChildren: int): real {
    numChildren as real * 2000.0
  }

  /** 1000 per child for at most three children; nothing without children. */
  function Cdcc(numChildren: int): (r: real)
    ensures 0.0 <= r <= 3000.0
    ensures numChildren <= 0 ==> r == 0.0
    ensures numChildren >= 3 ==> r == 3000.0
    ensures 0 <= numChildren <= 3 ==> r == 1000.0 * numChildren as real
  {
    if numChildren > 0 then MinInt(numChildren * 1000, 3000) as real else 0.0
  }

  /** WIC: 600 a year per counted young child, unless income exceeds 185% of
      the guideline. */
  function Wic(income: real, size: int, numYoungChildren: int): real {
    var fpg := Fpg(size) as real;
    if income > fpg * 1.85 then 0.0 else numYoungChildren as real * 600.0
  }

  // ---------------------------------------------------------------------------
  // Premium tax credit

  /** Expected-contribution rate as a step function of income over the guideline. */
  function ContributionRate(fpgRatio: real): (rate: real)
    ensures 0.02 <= rate <= 0.085
    ensures fpgRatio <= 1.5 <==> rate == 0.02
    ensures 1.5 < fpgRatio <= 2.0 <==> rate == 0.04
    ensures 2.0 < fpgRatio <= 2.5 <==> rate == 0.06
    ensures 2.5 < fpgRatio <= 3.0 <==> rate == 0.08
    ensures fpgRatio > 3.0 <==> rate == 0.085
  {
    if fpgRatio <= 1.5 then 0.02
    else if fpgRatio <= 2.0 then 0.04
    else if fpgRatio <= 2.5 then 0.06
    else if fpgRatio <= 3.0 then 0.08
    else 0.085
  }

  /** A higher income-to-guideline ratio never lowers the contribution rate. */
  lemma ContributionRateMonotone(a: real, b: real)
    requires a <= b
    ensures ContributionRate(a) <= ContributionRate(b)
  {
  }

  /** The benchmark premium that the credit subsidises. */
  const BenchmarkPremium: real := 5000.0

  lemma RatioBounds(income: real, fpg: real, c: real)
    requires fpg > 0.0
    ensures income / fpg <= c <==> income <= c * fpg
  {
    assert (income / fpg) * fpg == income;
    if income / fpg <= c {
      assert (income / fpg) * fpg <= c * fpg;
    } else {
      assert (income / fpg) * fpg > c * fpg;
    }
  }

  /** The premium tax credit against a guideline amount `fpg`: nothing below the
      guideline (left to Medicaid) or above 400% of it; in between the benchmark
      premium less the expected contribution at the income's ratio to the
      guideline, never below zero. */
  function PtcFor(income: real, fpg: real): (r: real)
    requires fpg > 0.0
    ensures 0.0 <= r <= BenchmarkPremium
    ensures r > 0.0 ==> fpg <= income <= 4.0 * fpg
    ensures fpg <= income <= 4.0 * fpg ==> r == MaxReal(0.0, BenchmarkPremium - income * ContributionRate(income / fpg))
  {
    if income < fpg then 0.0
    else if income > fpg * 4.0 then 0.0
    else
      var fpgPercent := income / fpg;
      var expectedContribution := income * ContributionRate(fpgPercent);
      MaxReal(0.0, BenchmarkPremium - expectedContribution)
  }

  /** An income strictly above `lo` and at most `hi` times the guideline has
      its ratio to the guideline in `(lo, hi]`. */
  lemma RatioInBand(income: real, fpg: real, lo: real, hi: real)
    requires fpg > 0.0 && lo * fpg < income <= hi * fpg
    ensures lo < income / fpg <= hi
  {
    RatioBounds(income, fpg, lo);
    RatioBounds(income, fpg, hi);
  }

  /** The credit band by band: the benchmark premium less 2%, 4%, 6%, 8% or
      8.5% of income, by the income's share of the guideline. */
  lemma PtcBands(income: real, fpg: real)
    requires fpg > 0.0
    ensures fpg <= income <= 1.5 * fpg ==> PtcFor(income, fpg) == MaxReal(0.0, BenchmarkPremium - 0.02 * income)
    ensures 1.5 * fpg < income <= 2.0 * fpg ==> PtcFor(income, fpg) == MaxReal(0.0, BenchmarkPremium - 0.04 * income)
    ensures 2.0 * fpg < income <= 2.5 * fpg ==> PtcFor(income, fpg) == MaxReal(0.0, BenchmarkPremium - 0.06 * income)
    ensures 2.5 * fpg < income <= 3.0 * fpg ==> PtcFor(income, fpg) == MaxReal(0.0, BenchmarkPremium - 0.08 * income)
    ensures 3.0 * fpg < income <= 4.0 * fpg ==> PtcFor(income, fpg) == MaxReal(0.0, BenchmarkPremium - 0.085 * income)
  {
    if fpg <= income <= 1.5 * fpg {
      RatioInBand(income, fpg, 0.0, 1.5);
      assert ContributionRate(income / fpg) == 0.02;
    } else if 1.5 * fpg < income <= 2.0 * fpg {
      RatioInBand(income, fpg, 1.5, 2.0);
      assert ContributionRate(income / fpg) == 0.04;
    } else if 2.0 * fpg < income <= 2.5 * fpg {
      RatioInBand(income, fpg, 2.0, 2.5);
      assert ContributionRate(income / fpg) == 0.06;
    } else if 2.5 * fpg < income <= 3.0 * fpg {
      RatioInBand(income, fpg, 2.5, 3.0);
      assert ContributionRate(income / fpg) == 0.08;
    } else if 3.0 * fpg < income <= 4.0 * fpg {
      RatioInBand(income, fpg, 3.0, 4.0);
      assert ContributionRate(income / fpg) == 0.085;
    }
  }

  /** The premium tax credit for a household size: the credit against that
      size's guideline, so the size matters only through the guideline. */
  function Ptc(income: real, size: int): (r: real)
    ensures 0.0 <= r <= BenchmarkPremium
    ensures r == PtcFor(income, Fpg(size) as real)
  {
    PtcFor(income, Fpg(size) as real)
  }

  /** The credit for a household size: positive only between 100% and 400% of
      its guideline, and there the benchmark premium less 2%, 4%, 6%, 8% or
      8.5% of income by band, never below zero. */
  lemma PtcBySize(income: real, size: int)
    ensures var fpg := Fpg(size) as real;
      Ptc(income, size) > 0.0 ==> fpg <= income <= 4.0 * fpg
    ensures var fpg := Fpg(size) as real;
      fpg <= income <= 1.5 * fpg ==> Ptc(income, size) == MaxReal(0.0, BenchmarkPremium - 0.02 * income)
    ensures var fpg := Fpg(size) as real;
      1.5 * fpg < income <= 2.0 * fpg ==> Ptc(income, size) == MaxReal(0.0, BenchmarkPremium - 0.04 * income)
    ensures var fpg := Fpg(size) as real;
      2.0 * fpg < income <= 2.5 * fpg ==> Ptc(income, size) == MaxReal(0.0, BenchmarkPremium - 0.06 * income)
    ensures var fpg := Fpg(size) as real;
      2.5 * fpg < income <= 3.0 * fpg ==> Ptc(income, size) == MaxReal(0.0, BenchmarkPremium - 0.08 * income)
    ensures var fpg := Fpg(size) as real;
      3.0 * fpg < income <= 4.0 * fpg ==> Ptc(income, size) == MaxReal(0.0, BenchmarkPremium - 0.085 * income)
  {
    PtcBands(income, Fpg(size) as real);
  }

  // ---------------------------------------------------------------------------
  // Marginal tax rate placeholder

  /** A coarse federal bracket lookup: 12%, 22% strictly above 44726 and 24%
      strictly above 95376. */
  function MarginalRate(income: real): (rate: real)
    ensures rate == 0.12 <==> income <= 44726.0
    ensures rate == 0.22 <==> 44726.0 < income <= 95376.0
    ensures rate == 0.24 <==> income > 95376.0
  {
    var base := 0.12;
    var afterFirst := if income > 44726.0 then 0.22 else base;
    if income > 95376.0 then 0.24 else afterFirst
  }
}

=== FILE: pyrange.dfy ===
/**
 Python's `range(start, stop, step)` over integers, and the inclusive income grid
 `range(min, max + 1, step)` that every sweep in the system iterates over.
 A zero step is the `ValueError` Python raises; a negative step counts down.
 */
module PyRange {
  import opened Basics

  datatype RangeError = ZeroStep

  /** The k-th value a range visits, whether or not it is still inside the bound. */
  function Elem(start: int, step: int, k: nat): int {
    start + k * step
  }

  /** The values of a range with a non-zero step, in visiting order. */
  function Steps(start: int, stop: int, step: int): (r: seq<int>)
    requires step != 0
    ensures forall k :: 0 <= k < |r| ==> r[k] == Elem(start, step, k)
    ensures step > 0 ==> (forall k :: 0 <= k < |r| ==> r[k] < stop) && Elem(start, step, |r|) >= stop
    ensures step < 0 ==> (forall k :: 0 <= k < |r| ==> r[k] > stop) && Elem(start, step, |r|) <= stop
    decreases if step > 0 then stop - start else start - stop
  {
    if (step > 0 && start < stop) || (step < 0 && start > stop) then
      var tail := Steps(start + step, stop, step);
      var r := [start] + tail;
      assert forall k :: 1 <= k < |r| ==> r[k] == Elem(start, step, k) by {
        forall k | 1 <= k < |r|
          ensures r[k] == Elem(start, step, k)
        {
          assert r[k] == Elem(start + step, step, k - 1);
          ElemShift(start, step, k);
        }
      }
      ElemShift(start, step, |r|);
      r
    else
      []
  }

  /** `range(start, stop, step)`: the ValueError for a zero step, else its values. */
  function Range(start: int, stop: int, step: int): (r: Result<seq<int>, RangeError>)
    ensures r.Err? <==> step == 0
  {
    if step == 0 then Err(ZeroStep) else Ok(Steps(start, stop, step))
  }

  /** `range(min, max + 1, step)`: the income axis of every sweep. */
  function IncomeGrid(min: int, max: int, step: int): (r: Result<seq<int>, RangeError>)
    ensures r.Err? <==> step == 0
    ensures step > 0 ==> forall k :: 0 <= k < |r.value| ==> min <= r.value[k] <= max
  {
    Range(min, max + 1, step)
  }

  lemma ElemShift(start: int, step: int, k: nat)
    requires k >= 1
    ensures Elem(start + step, step, k - 1) == Elem(start, step, k)
  {
    assert (k - 1) * step == k * step - step;
  }

  lemma ElemMonotone(start: int, step: int, i: nat, j: nat)
    requires step > 0 && i <= j
    ensures Elem(start, step, i) <= Elem(start, step, j)
  {
    assert j * step - i * step == (j - i) * step;
  }

  lemma ElemStrict(start: int, step: int, i: nat, j: nat)
    requires step != 0 && i < j
    ensures step > 0 ==> Elem(start, step, i) < Elem(start, step, j)
    ensures step < 0 ==> Elem(start, step, i) > Elem(start, step, j)
  {
    assert j * step - i * step == (j - i) * step;
    if step > 0 {
      MultiplyAtLeastOnce(j - i, step);
    } else {
      MultiplyAtLeastOnce(j - i, -step);
      assert (j - i) * (-step) == -((j - i) * step);
    }
  }

  /** A positive step visits its values in strictly ascending order, a negative one descending. */
  lemma StepsOrdered(start: int, stop: int, step: int)
    requires step != 0
    ensures step > 0 ==> forall i, j :: 0 <= i < j < |Steps(start, stop, step)| ==> Steps(start, stop, step)[i] < Steps(start, stop, step)[j]
    ensures step < 0 ==> forall i, j :: 0 <= i < j < |Steps(start, stop, step)| ==> Steps(start, stop, step)[i] > Steps(start, stop, step)[j]
  {
    var r := Steps(start, stop, step);
    forall i, j | 0 <= i < j < |r|
      ensures step > 0 ==> r[i] < r[j]
      ensures step < 0 ==> r[i] > r[j]
    {
      ElemStrict(start, step, i, j);
    }
  }

  /** For an ascending range: `x` is visited iff it lies in `[start, stop)` on the step lattice. */
  lemma {:induction false} StepsMembership(start: int, stop: int, step: int, x: int)
    requires step > 0
    ensures x in Steps(start, stop, step) <==> start <= x < stop && (x - start) % step == 0
  {
    var r := Steps(start, stop, step);
    if x in r {
      var k :| 0 <= k < |r| && r[k] == x;
      DivModOf(k, 0, step);
      ElemMonotone(start, step, 0, k);
    }
    if start <= x < stop && (x - start) % step == 0 {
      var k: nat := (x - start) / step;
      assert x == Elem(start, step, k);
      if k >= |r| {
        ElemMonotone(start, step, |r|, k);
        assert false;
      }
      assert r[k] == x;
    }
  }

  /** The income grid holds exactly the lattice points `min + k*step` up to and including `max`. */
  lemma GridMembership(min: int, max: int, step: int, x: int)
    requires step > 0
    ensures x in IncomeGrid(min, max, step).value <==> min <= x <= max && (x - min) % step == 0
  {
    StepsMembership(min, max + 1, step, x);
  }

  /** The upper bound is part of the grid iff it lands on a step boundary. */
  lemma GridIncludesMaxIff(min: int, max: int, step: int)
    requires step > 0
    ensures max in IncomeGrid(min, max, step).value <==> min <= max && (max - min) % step == 0
  {
    GridMembership(min, max, step, max);
  }

  /** A range that has reached its bound is empty. */
  lemma StepsDone(start: int, stop: int, step: int)
    requires step > 0 && start >= stop
    ensures Steps(start, stop, step) == []
  {
  }

  /** A range below its bound visits its start, then the range from the next value on. */
  lemma StepsNext(start: int, stop: int, step: int, rest: seq<int>)
    requires step > 0 && start < stop
    requires Steps(start + step, stop, step) == rest
    ensures Steps(start, stop, step) == [start] + rest
  {
  }

  /** Worked grid: an upper bound on the step lattice is included. */
  lemma GridExampleInclusive()
    ensures IncomeGrid(0, 50000, 10000) == Ok([0, 10000, 20000, 30000, 40000, 50000])
  {
    StepsDone(60000, 50001, 10000);
    StepsNext(50000, 50001, 10000, []);
    StepsNext(40000, 50001, 10000, [50000]);
    StepsNext(30000, 50001, 10000, [40000, 50000]);
    StepsNext(20000, 50001, 10000, [30000, 40000, 50000]);
    StepsNext(10000, 50001, 10000, [20000, 30000, 40000, 50000]);
    StepsNext(0, 50001, 10000, [10000, 20000, 30000, 40000, 50000]);
    assert Steps(0, 50001, 10000) == [0, 10000, 20000, 30000, 40000, 50000];
    assert Range(0, 50001, 10000) == Ok([0, 10000, 20000, 30000, 40000, 50000]);
  }

  /** Worked grid: an upper bound off the step lattice is excluded. */
  lemma GridExampleExclusive()
    ensures IncomeGrid(0, 45000, 10000) == Ok([0, 10000, 20000, 30000, 40000])
  {
    StepsDone(50000, 45001, 10000);
    StepsNext(40000, 45001, 10000, []);
    StepsNext(30000, 45001, 10000, [40000]);
    StepsNext(20000, 45001, 10000, [30000, 40000]);
    StepsNext(10000, 45001, 10000, [20000, 30000, 40000]);
    StepsNext(0, 45001, 10000, [10000, 20000, 30000, 40000]);
    assert Steps(0, 45001, 10000) == [0, 10000, 20000, 30000, 40000];
    assert Range(0, 45001, 10000) == Ok([0, 10000, 20000, 30000, 40000]);
  }

  /** Worked grid: a window that starts above zero. */
  lemma GridExampleWindow()
    ensures IncomeGrid(20000, 40000, 10000) == Ok([20000, 30000, 40000])
    ensures IncomeGrid(20000, 20000, 10000) == Ok([20000])
  {
    StepsDone(50000, 40001, 10000);
    StepsNext(40000, 40001, 10000, []);
    StepsNext(30000, 40001, 10000, [40000]);
    StepsNext(20000, 40001, 10000, [30000, 40000]);
    assert Steps(20000, 40001, 10000) == [20000, 30000, 40000];
    assert Range(20000, 40001, 10000) == Ok([20000, 30000, 40000]);
    StepsDone(30000, 20001, 10000);
    StepsNext(20000, 20001, 10000, []);
    assert Steps(20000, 20001, 10000) == [20000];
    assert Range(20000, 20001, 10000) == Ok([20000]);
  }
}
